=== FILE: README.md ===
# Temp-mail inbound sync: a Dafny model

This project models the core of a disposable-address mail service. The service
has three parts:

- A Node server (`backend/server.js`). It hands out aliases from a pool file
  (`emails.json`). On each Pub/Sub push it synchronises new Gmail messages into
  in-memory inboxes, starting from a history cursor kept in `state.json`.
- A React client (`frontend/src/App.js`). It shows one inbox, with a subject
  filter and an id filter.
- A maintenance script (`backend/fix_emails_json.py`). It regenerates the alias
  pool.

The model is functional. Every request or run is a pure function from its
inputs and state to its outputs and new state:

- Remote Gmail calls are function parameters. `list` is the history listing,
  `fetch` is the message fetch, and `decode` is the base64/UTF-8 decoding.
- File contents are values. `state.json` is an `Option<string>` cursor.
  `emails.json` is an `Option<PoolFile>`.

Modules, in dependency order:

- `Wrappers`: `Option` and `Fetched` (a remote call that answered or threw).
- `Search`: the first-match search behind every `find`/`findIndex` the code uses.
- `Text`: JavaScript `trim` (the ECMA-262 WhiteSpace and LineTerminator
  characters) and ASCII `toLowerCase`.
- `Mime`: the payload part tree, `parseHeader` and `parseMessageBody`.
- `Address`: `normalizeEmailAddress`, including the exact leftmost-greedy
  semantics of the regular expression `<(.+)>`.
- `InboxStore`: the `receivedEmails` object. Its keys are kept in insertion
  order, because `Object.keys(...).find` routes a message to the first key
  that normalises to its recipient.
- `Webhook`: the body of `/webhook/pubsub-push`.
- `Pool`: `/api/new-address`, `/api/mark-used`, the inbox read and
  `initializeActiveInboxes`.
- `Client`: the `uniqueEmails` memo, the `NEW_EMAIL` update and `resetSession`.
- `Aliases`: `fix_emails_json.py`.
- `Scenarios`: concrete runs on small inputs.

Some behaviours of the code that the model keeps as they are:

- Insertion is not idempotent. A replayed batch stores every message again;
  `Webhook.SyncReplayDuplicates` proves this.
- A fetch that throws aborts the whole run. There is no per-message 404 skip.
- Nothing stops two webhook runs from overlapping.
- The cursor file is `state.json`. `loadLastHistoryId` and `saveLastHistoryId`
  are never called.

## Model

| member | source | states |
|---|---|---|
| Search.FirstIndex | backend/server.js:355 | `find` semantics: the returned index is the first element satisfying the test, and None means no element satisfies it |
| Text.LowerChar | backend/server.js:296 | an ASCII capital becomes the letter 32 code points above it; every other character is kept; the result is never an ASCII capital |
| Text.LowerSpec | backend/server.js:296 | `toLowerCase` keeps the length; no ASCII capital remains; every other character is kept in place, and each capital becomes its lowercase letter |
| Text.TrimStart | backend/server.js:296 | the result is a suffix of the input; everything removed is trim-able white space or a line terminator; the result does not start with one |
| Text.TrimEnd | backend/server.js:296 | the result is a prefix of the input; everything removed is trim-able; the result does not end with a trim-able character |
| Text.Trim | backend/server.js:296 | a trimmed string neither starts nor ends with a trim-able character |
| Text.TrimKeepsMiddle | backend/server.js:296 | `trim` returns a contiguous slice of its input, starting where the leading white space ends |
| Text.TrimRemovesOnlyTrimmable | backend/server.js:296 | every character `trim` drops, before and after the kept slice, is trim-able white space or a line terminator |
| Text.TrimIdempotent | backend/server.js:355 | trimming an already trimmed key changes nothing |
| Text.LowerCommutesWithTrim | backend/server.js:355 | `trim().toLowerCase()` equals `toLowerCase().trim()` for every string |
| Text.CanonicalIdempotent | backend/server.js:355 | the key normalisation is a fixed point on its own output |
| Mime.ParseHeader | backend/server.js:281-285 | absent headers give ""; otherwise the value of the first header whose name matches case-insensitively, or "" when none matches |
| Mime.FirstHtml | backend/server.js:252 | the first child whose mimeType is text/html, and None only when no child is |
| Mime.ParseMessageBody | backend/server.js:243-273 | a null payload gives ""; a leaf without data gives "" |
| Mime.FirstBodyIsFirstNonEmpty | backend/server.js:260-265 | the loop over the children returns the body of the first child that yields a non-empty body, and "" when none does |
| Mime.AlternativePrefersHtml | backend/server.js:251-257 | a multipart/alternative node whose first text/html child yields a body returns exactly that body, whatever its position among siblings |
| Mime.ChildrenSearchedInOrder | backend/server.js:248-266 | otherwise a node with children returns the first non-empty body of its children, left to right, or "" |
| Mime.OwnDataIgnoredWithChildren | backend/server.js:248-270 | a node with a non-empty parts list never uses its own body.data |
| Mime.LeafDecodesOwnData | backend/server.js:268-270 | a leaf with data yields exactly the decoding of that data |
| Mime.BodyComesFromLeaf | backend/server.js:243-273 | any non-empty result is the decoding of some leaf's data in the tree; no body is invented |
| Address.FindMatch | backend/server.js:294 | the reported match of `<(.+)>`: the leftmost '<' that can start a match, and for it the last '>' before the next line terminator, with at least one character between |
| Address.AddressPart | backend/server.js:294-295 | the captured group of the reported match, or the whole value when the pattern does not match |
| Address.NormalizeEmailAddress | backend/server.js:292-297 | "" maps to ""; a value with a match gives the trimmed, lowercased capture; a value without one is trimmed and lowercased whole |
| Address.ReportedMatchUnique | backend/server.js:294 | the leftmost-greedy match is unique, so the capture is well defined |
| Address.NormalizedIsCanonical | backend/server.js:296 | a normalised address carries no surrounding white space and no ASCII capitals |
| InboxStore.Read | backend/server.js:202 | the inbox read returns the inbox stored under exactly that key, and [] for a missing key |
| InboxStore.Open | backend/server.js:156-158 | creating an inbox keeps the object well formed, appends the key only when absent, and changes no inbox's contents |
| InboxStore.Remove | backend/server.js:187 | `delete` removes exactly that key, keeps every other key and leaves every other inbox unchanged |
| InboxStore.WithoutKeepsFirstMatch | backend/server.js:187 | deleting a key keeps the order of the others: if the first key passing a test is not the deleted one, it is still the first to pass |
| InboxStore.RemoveKeepsRoute | backend/server.js:355 | after a `delete`, mail routed to any other key still goes to that key, and mail that matched no key still matches none |
| InboxStore.KeyIndex | backend/server.js:355 | the first key, in key order, whose trimmed lowercased form equals the target; None when no key does |
| InboxStore.Route | backend/server.js:355 | the routed key exists and normalises to the target, and no key before it in key order does; None only when no key normalises to it |
| InboxStore.Deliver | backend/server.js:355-362 | the message is unshifted onto the routed inbox only; no route, or the falsy key "", leaves everything unchanged; no inbox is created or dropped |
| Webhook.Recipient | backend/server.js:348-354 | the normalised Delivered-To header when it is non-empty, else the normalised To header; the result is already in key-canonical form |
| Webhook.ToEmail | backend/server.js:347-358 | the stored record carries the message id, the From and Date headers and the parsed body; its subject is the Subject header, or "No Subject" when that is empty |
| Webhook.AddedIds | backend/server.js:339-343 | an id is processed exactly when some history record lists it in messagesAdded; records without messagesAdded contribute nothing |
| Webhook.AddedIdsConcat | backend/server.js:339-343 | the ids are processed in history order with repeats kept: one record contributes its `messagesAdded` list as it is, and the ids of two stretches of history concatenate |
| Webhook.Accept | backend/server.js:345-362 | handling one fetched message prepends its record to the inbox its recipient routes to, and to no other |
| Webhook.Process | backend/server.js:339-364 | the batch loop never adds or drops an inbox key |
| Webhook.Sync | backend/server.js:303-374 | no state file: nothing changes; list failure: abort, nothing changes; empty or absent history: nothing changes; the cursor changes only on completion, and then to the response's historyId |
| Webhook.ProcessPrependsArrivals | backend/server.js:339-364 | after the loop each inbox holds the records routed to it, last processed first, in front of its old contents; this also holds when a failed fetch stops the loop |
| Webhook.ProcessSucceedsIffAllFetched | backend/server.js:345-347 | the loop runs to the end exactly when every fetch returns a payload |
| Webhook.SyncCompletes | backend/server.js:339-368 | with a non-empty history and every fetch answered, the run completes, the state file holds the new historyId, and each inbox gains exactly its routed records |
| Webhook.SyncAbortKeepsCursor | backend/server.js:371-373 | a fetch that throws aborts the run; the old cursor stays, and the records delivered before the failure stay in their inboxes |
| Webhook.ArrivalsStopAtFailure | backend/server.js:345 | messages after the first failed fetch contribute nothing |
| Webhook.SyncAddsArrivals | backend/server.js:339-368 | one inbox's view of a completed run: keys unchanged, routed records in front |
| Webhook.SyncReplayDuplicates | backend/server.js:358 | a second run from the same cursor unshifts every routed record a second time |
| Pool.LoadEmails | backend/server.js:101-115 | a missing or unparseable file reads as an empty array; a parsed file is used as it is |
| Pool.MissingPoolFile | backend/server.js:101-115 | with no readable pool file, new-address and mark-used answer 404 and a start-up leaves no inbox at all |
| Pool.FirstFree | backend/server.js:144 | the first entry with a truthy address and `is_used === false`, or None when there is none |
| Pool.IndexOf | backend/server.js:177 | the first entry whose address equals the request's exactly, or None |
| Pool.NewAddress | backend/server.js:136-165 | not an array: 500 and no change; no free entry: 404 and no change; a free entry always leads to an assignment, which returns the first free address, saves the file with that entry used, and opens its inbox exactly as `Open` does: the key is appended only when absent, no other key is added, and no inbox's contents change |
| Pool.MarkUsed | backend/server.js:168-196 | empty address: 400; not an array: 500; no matching entry: 404 and no change; retired exactly when some entry matches; on retirement the first match is marked used and the inboxes are exactly `Remove(s, address)`: that key is deleted, and every other key and its contents are kept; otherwise file and inboxes unchanged |
| Pool.OpenActive | backend/server.js:387-391 | the start-up loop adds an inbox for each active address and empties none |
| Pool.InitializeActiveInboxes | backend/server.js:380-399 | for an array the inbox object becomes exactly the used entries with truthy addresses, each empty, keyed in the order of each address's first used entry; otherwise it is unchanged |
| Pool.ActiveKeysInFileOrder | backend/server.js:385-390 | the start-up loop appends each address at its first used entry, so the keys come out in the order of each address's first used entry |
| Pool.AssignedSurvivesRestart | backend/server.js:385-390 | an address handed out by new-address gets an inbox again after a restart |
| Pool.NewAddressAdvances | backend/server.js:144 | after handing out an entry, the next free entry lies strictly after it |
| Pool.MarkUsedIdempotent | backend/server.js:177-187 | retiring the same address twice is the same as retiring it once |
| Pool.RetiredNotReassigned | backend/server.js:183 | a retired entry is never the one new-address picks next |
| Client.UniqueEmails | frontend/src/App.js:31-42 | the loop computes the reference filter; entry i of the shown list is the inbox entry at the i-th earliest-passing position; the list is a subsequence of the inbox with distinct ids, every entry passes the subject filter, and it keeps exactly the earliest passing entry of each id |
| Client.FirstShownPositions | frontend/src/App.js:35-39 | the positions whose entry passes the filter with no earlier passing entry of the same id, exactly those, in increasing order |
| Client.UniqueAtFirstShown | frontend/src/App.js:35-39 | the reference filter keeps, in order, exactly the inbox entries at the earliest-passing positions |
| Client.UniqueIsSubsequence | frontend/src/App.js:35-39 | the reference filter keeps inbox order and invents nothing |
| Client.UniqueHasDistinctIds | frontend/src/App.js:32-38 | no two kept entries share an id |
| Client.UniqueIds | frontend/src/App.js:36-37 | the ids seen are exactly the ids of the entries that pass the subject filter |
| Client.UniqueKeepsFirstShown | frontend/src/App.js:35-39 | the earliest passing entry of every id is kept |
| Client.UniqueOnlyFirstShown | frontend/src/App.js:35-39 | only such earliest passing entries are kept |
| Client.UniqueOfClean | frontend/src/App.js:35-39 | a list whose entries all pass with distinct ids is left as it is |
| Client.UniqueIdempotent | frontend/src/App.js:31-42 | filtering the filtered list changes nothing |
| Client.OnSocketMessage | frontend/src/App.js:63-70 | a NEW_EMAIL message with data whose address equals the current address prepends the data; any other message, or a frame that is not JSON, leaves the inbox unchanged |
| Client.PushedShownFirst | frontend/src/App.js:68 | a prepended message that passes the subject filter is the first one shown |
| Client.ResetSession | frontend/src/App.js:104-109 | the inbox is empty, nothing is selected, both notifications are cleared, and the address is kept |
| Aliases.Decimal | backend/fix_emails_json.py:30 | `str(n)` is a non-empty run of decimal digits with no leading zero, except for 0 itself |
| Aliases.DecimalRoundTrip | backend/fix_emails_json.py:30 | the digits of `str(n)` read back as n |
| Aliases.IsValidAlias | backend/fix_emails_json.py:13-16 | the anchored pattern `^silenthustlep\.ge\+temp\d+@gmail\.com$`, where `$` also matches before one trailing newline: an accepted string starts with the prefix and is longer than prefix and domain together |
| Aliases.ValidAliasForm | backend/fix_emails_json.py:13-16 | a string is accepted exactly when it is the prefix, a non-empty run of ASCII digits and the domain, optionally followed by one newline |
| Aliases.AliasRoundTrip | backend/fix_emails_json.py:15 | every generated alias matches the anchored pattern and carries its own index |
| Aliases.GeneratedAliasesValid | backend/fix_emails_json.py:13-16 | every generated alias passes is_valid_alias, also with one trailing newline |
| Aliases.AliasInjective | backend/fix_emails_json.py:30 | distinct indices give distinct aliases |
| Aliases.Rewritten | backend/fix_emails_json.py:26-32 | the rewritten list has one entry per input item; entry i carries alias i + 1 and is free |
| Aliases.FixEmails | backend/fix_emails_json.py:19-32 | a missing file gives an empty list; a load that raises writes nothing; otherwise the output has the input's length, and entry i is alias i + 1 with `is_used` false, whatever the items hold |
| Aliases.RewrittenWellFormed | backend/fix_emails_json.py:28-32 | every rewritten entry is a valid, free alias, and no two entries share an address |
| Aliases.FixedPoolHandsOutFirstAlias | backend/fix_emails_json.py:28-32 | after a rewrite of a non-empty file, new-address hands out alias 1 |
| Scenarios.DisplayNameForm | backend/server.js:292-297 | "Foo <Bar@X.com >" normalises to "bar@x.com" |
| Scenarios.BareAddress | backend/server.js:295-296 | a value without '<' is only trimmed and lowercased |
| Scenarios.DeliveredToPreferred | backend/server.js:354 | Delivered-To wins over a multi-recipient To line |
| Scenarios.OneMessageScenario | backend/server.js:339-368 | a run from cursor "100" that lists one message for the tracked inbox stores exactly that message and saves cursor "105" |
| Scenarios.ReplayScenario | backend/server.js:358 | replaying the same cursor stores that message twice |
| Scenarios.StoredMailShownByClient | backend/server.js:351 | the client shows a stored message unless its Subject header is literally "(no subject)"; an empty subject is stored as "No Subject", which the filter lets through |

## Left out

- The Gmail, Pub/Sub and OAuth clients are left out: `getAuthenticatedClient`, `/api/publish`, authorize.js, start-watch.js, stop-watch.js and test-history.js. They are thin wrappers over Google APIs. Their answers reach the model as the `list` and `fetch` parameters. A failed authentication is a `list` failure.
- File I/O is left out. File contents are values. A failed write of `emails.json` is logged and ignored by the code, so the model treats the write as always succeeding. A failed write of `state.json` after the loop would leave the cursor unchanged; the model treats that write as always succeeding.
- Base64 and UTF-8 decoding of `body.data` is the opaque `decode` parameter, with no properties assumed.
- `Text.Lower`: lowercases ASCII letters only, because JavaScript's full Unicode case mapping is not modelled.
- `InboxStore.Inboxes`: keys are kept in insertion order. `Object.keys` lists integer-like keys (such as an address "123") first, in ascending order, and this is not modelled.
- `InboxStore.Read`: the inbox object is a plain object, so a key inherited from `Object.prototype` (such as `constructor` or `toString`) is truthy. new-address then opens no inbox for it (backend/server.js:156), and the inbox read returns the inherited value instead of `[]` (backend/server.js:202). The model treats such keys like any other address.
- `Aliases.IsValidAlias`: `\d` matches ASCII digits only, because Python's Unicode digit class is not modelled.
- Strings are sequences of Unicode scalar values, not UTF-16 code units. This affects only characters outside the Basic Multilingual Plane, which the trim and line-terminator sets do not contain.
- Concurrency is left out. Two webhook runs interleaving at `await` points, and client requests racing a run, are not modelled; each run is sequential. The replay lemma covers the case where a second run reads the cursor before the first run saves its own.
- `fetch` is a function of the message id, so an id listed twice in one run gets the same answer both times.
- A state file that parses but has no `lastHistoryId` field is a cursor like any other. The listing call then decides the outcome. A response without `historyId` is not modelled; the saved cursor is always the response's value.
- `Webhook.Sync`: the message id is read as `msgAdded.message.id`. A `messagesAdded` entry without `message` throws in the code; the model takes ids as given.
- `Pool.AddressRecord`: `null` entries and non-string addresses in `emails.json` are not modelled. The code throws on a `null` entry in mark-used and skips it in new-address. A missing or falsy address is the empty string, and `is_used` is kept only when it is a boolean.
- `Mime.Header`: a header entry without a `name` (which would throw in `toLowerCase`) is not modelled.
- The webhook's immediate 204 acknowledgment, logging, Express routing, CORS and HTTP status codes are left out. The pool endpoints' outcomes are named (`BadRequest`, `NotFound`, `ServerError`); their bodies are not.
- The client stores the whole `data` object of a `NEW_EMAIL` message. The model keeps its `address` field and the email record.
- The client's `NEW_EMERGENT_LOGIN` notice, the "New email received!" success notice that a `NEW_EMAIL` message sets (frontend/src/App.js:69), toast timers, React rendering, WebSocket setup and DOMPurify are left out. The server never sends `NEW_EMAIL`, so nothing in the model produces such messages.
- setup.py is left out: it performs environment checks, subprocess calls and prompts.
- `loadLastHistoryId` and `saveLastHistoryId` (backend/server.js:54-70) are dead code and are not modelled.
- `Aliases.FixEmails`: a loaded value that is not iterable raises in `enumerate`. The model counts that with the other load errors, under `Corrupt`, and nothing is written.

=== FILE: address.dfy ===
/** normalizeEmailAddress (backend/server.js): the address part of a
    header value, trimmed and lowercased. */
module Address {
  import opened Wrappers
  import opened Text

  /** The characters a JavaScript `.` does not match without the `s` flag. */
  predicate IsLineTerminator(c: char) {
    c == '\n' || c == '\r' || c == '\U{2028}' || c == '\U{2029}'
  }

  /** The pattern `<(.+)>` matches `s` with its '<' at `i` and its '>' at
      `j`: at least one character between them, none a line terminator. */
  predicate MatchAt(s: string, i: int, j: int) {
    && 0 <= i && i + 1 < j < |s|
    && s[i] == '<' && s[j] == '>'
    && forall k :: i < k < j ==> !IsLineTerminator(s[k])
  }

  /** The match `String.prototype.match` reports: the leftmost start, and
      for that start the longest (greedy) match. */
  ghost predicate IsReportedMatch(s: string, i: int, j: int) {
    && MatchAt(s, i, j)
    && forall a, b :: MatchAt(s, a, b) ==> i < a || (a == i && b <= j)
  }

  /** The first line terminator at or after `from`, or |s|. */
  function LineEnd(s: string, from: nat): (e: nat)
    requires from <= |s|
    ensures from <= e <= |s|
    ensures forall k :: from <= k < e ==> !IsLineTerminator(s[k])
    ensures e < |s| ==> IsLineTerminator(s[e])
    decreases |s| - from
  {
    if from == |s| || IsLineTerminator(s[from]) then from else LineEnd(s, from + 1)
  }

  /** The last '>' strictly between `lo` and `hi`. */
  function LastClose(s: string, lo: nat, hi: nat): (r: Option<nat>)
    requires hi <= |s|
    ensures r.Some? ==> lo < r.value < hi && s[r.value] == '>'
    ensures r.Some? ==> forall k :: r.value < k < hi ==> s[k] != '>'
    ensures r.None? ==> forall k :: lo < k < hi ==> s[k] != '>'
    decreases hi
  {
    if hi <= lo + 1 then None
    else if s[hi - 1] == '>' then Some(hi - 1)
    else LastClose(s, lo, hi - 1)
  }

  /** The regular-expression search from position `i` on. */
  function FindMatch(s: string, i: nat): (r: Option<(nat, nat)>)
    requires i <= |s|
    ensures r.Some? ==> i <= r.value.0 && MatchAt(s, r.value.0, r.value.1)
    ensures r.Some? ==> forall a, b :: i <= a && MatchAt(s, a, b) ==>
                          r.value.0 < a || (a == r.value.0 && b <= r.value.1)
    ensures r.None? ==> forall a, b :: i <= a ==> !MatchAt(s, a, b)
    decreases |s| - i
  {
    if i == |s| then None
    else
      var e := LineEnd(s, i + 1);
      var close := if s[i] == '<' then LastClose(s, i + 1, e) else None;
      assert forall b :: MatchAt(s, i, b) ==> b < e && close.Some? && b <= close.value by {
        forall b | MatchAt(s, i, b)
          ensures b < e && close.Some? && b <= close.value
        {
          assert e < |s| ==> !(i < e < b);
        }
      }
      match close
      case Some(j) => Some((i, j))
      case None => FindMatch(s, i + 1)
  }

  /** The captured group of the reported match, or the whole value when
      the pattern does not match. */
  function AddressPart(v: string): (c: string)
    ensures forall i, j :: IsReportedMatch(v, i, j) ==> c == v[i + 1..j]
    ensures (forall i, j :: !MatchAt(v, i, j)) ==> c == v
  {
    match FindMatch(v, 0)
    case Some(m) =>
      assert IsReportedMatch(v, m.0, m.1);
      assert forall i, j :: IsReportedMatch(v, i, j) ==> i == m.0 && j == m.1;
      v[m.0 + 1..m.1]
    case None => v
  }

  /** normalizeEmailAddress: "" for an empty value; otherwise the captured
      group of the reported match, or the whole value when there is none,
      trimmed and lowercased. */
  function NormalizeEmailAddress(v: string): (r: string)
    ensures v == "" ==> r == ""
    ensures forall i, j :: IsReportedMatch(v, i, j) ==> r == Canonical(v[i + 1..j])
    ensures (forall i, j :: !MatchAt(v, i, j)) ==> r == Canonical(v)
  {
    if v == "" then "" else Lower(Trim(AddressPart(v)))
  }

  /** A reported match, when there is one, is unique. */
  lemma ReportedMatchUnique(s: string, i: int, j: int, i': int, j': int)
    requires IsReportedMatch(s, i, j) && IsReportedMatch(s, i', j')
    ensures i == i' && j == j'
  {
  }

  /** The result never keeps surrounding white space or upper-case ASCII. */
  lemma NormalizedIsCanonical(v: string)
    ensures Canonical(NormalizeEmailAddress(v)) == NormalizeEmailAddress(v)
  {
    if v != "" {
      CanonicalIdempotent(AddressPart(v));
    }
  }
}

=== FILE: aliases.dfy ===
/** The maintenance script backend/fix_emails_json.py: it rewrites
    emails.json so that entry i (counting from 1) is the free alias
    `silenthustlep.ge+temp<i>@gmail.com`. */
module Aliases {
  import opened Wrappers
  import opened InboxStore
  import opened Pool

  const Prefix := "silenthustlep.ge+temp"
  const Domain := "@gmail.com"

  /** `\d`, restricted to ASCII digits. */
  predicate IsDigit(c: char) {
    '0' <= c <= '9'
  }

  function DigitChar(d: nat): (c: char)
    requires d < 10
    ensures IsDigit(c)
  {
    ('0' as int + d) as char
  }

  /** `str(n)` for a natural number: its decimal digits, no leading zero. */
  function Decimal(n: nat): (r: string)
    ensures |r| > 0 && forall k :: 0 <= k < |r| ==> IsDigit(r[k])
    ensures r[0] == '0' ==> n == 0
  {
    if n < 10 then [DigitChar(n)] else Decimal(n / 10) + [DigitChar(n % 10)]
  }

  /** The number a string of digits denotes. */
  function DigitsValue(s: string): nat
    requires forall k :: 0 <= k < |s| ==> IsDigit(s[k])
  {
    if |s| == 0 then 0
    else
      assert IsDigit(s[|s| - 1]);
      DigitsValue(s[..|s| - 1]) * 10 + (s[|s| - 1] as int - '0' as int)
  }

  /** Reading back the digits of `str(n)` gives `n`. */
  lemma {:induction false} DecimalRoundTrip(n: nat)
    ensures DigitsValue(Decimal(n)) == n
  {
    if n >= 10 {
      var s := Decimal(n);
      assert s[..|s| - 1] == Decimal(n / 10);
      DecimalRoundTrip(n / 10);
    }
  }

  /** The address the script writes for entry `i`. */
  function Alias(i: nat): string {
    Prefix + Decimal(i) + Domain
  }

  /** The number inside an address of alias shape. */
  function AliasNumber(t: string): nat
    requires IsAliasShape(t)
  {
    DigitsValue(t[|Prefix|..|t| - |Domain|])
  }

  /** The anchored pattern `silenthustlep\.ge\+temp\d+@gmail\.com` matching
      all of `t`. */
  predicate IsAliasShape(t: string) {
    && |t| > |Prefix| + |Domain|
    && t[..|Prefix|] == Prefix
    && t[|t| - |Domain|..] == Domain
    && forall k :: |Prefix| <= k < |t| - |Domain| ==> IsDigit(t[k])
  }

  /** is_valid_alias: `re.match` anchors at the start; the final `$` also
      matches just before one trailing newline. */
  predicate IsValidAlias(s: string): (b: bool)
    ensures b ==> |s| > |Prefix| + |Domain| && s[..|Prefix|] == Prefix
  {
    || IsAliasShape(s)
    || (|s| > 0 && s[|s| - 1] == '\n' && IsAliasShape(s[..|s| - 1]))
  }

  /** A non-empty run of ASCII digits. */
  predicate DigitRun(d: string) {
    |d| > 0 && forall k :: 0 <= k < |d| ==> IsDigit(d[k])
  }

  /** The strings is_valid_alias accepts are exactly the prefix, a
      non-empty run of ASCII digits and the domain, optionally followed by
      one newline. */
  lemma ValidAliasForm(s: string)
    ensures IsValidAlias(s) <==>
              exists d :: DigitRun(d) && (s == Prefix + d + Domain || s == Prefix + d + Domain + "\n")
  {
    if IsValidAlias(s) {
      ValidAliasHasForm(s);
    }
    if exists d :: DigitRun(d) && (s == Prefix + d + Domain || s == Prefix + d + Domain + "\n") {
      var d :| DigitRun(d) && (s == Prefix + d + Domain || s == Prefix + d + Domain + "\n");
      FormIsValidAlias(d);
    }
  }

  /** An accepted string splits into prefix, digits, domain and at most
      one newline. */
  lemma ValidAliasHasForm(s: string)
    requires IsValidAlias(s)
    ensures exists d :: DigitRun(d) && (s == Prefix + d + Domain || s == Prefix + d + Domain + "\n")
  {
    var t := if IsAliasShape(s) then s else s[..|s| - 1];
    assert s == t || s == t + "\n";
    var d := t[|Prefix|..|t| - |Domain|];
    assert t == t[..|Prefix|] + d + t[|t| - |Domain|..];
    assert t == Prefix + d + Domain;
    assert forall k :: 0 <= k < |d| ==> d[k] == t[k + |Prefix|];
    assert DigitRun(d);
  }

  /** Prefix, digits and domain, with or without one newline, are
      accepted. */
  lemma FormIsValidAlias(d: string)
    requires DigitRun(d)
    ensures IsValidAlias(Prefix + d + Domain) && IsValidAlias(Prefix + d + Domain + "\n")
  {
    var t := Prefix + d + Domain;
    assert t[..|Prefix|] == Prefix && t[|t| - |Domain|..] == Domain;
    assert forall k :: |Prefix| <= k < |t| - |Domain| ==> t[k] == d[k - |Prefix|];
    assert IsAliasShape(t);
    assert (t + "\n")[..|t + "\n"| - 1] == t;
  }

  /** Every generated address has alias shape and carries its own index. */
  lemma AliasRoundTrip(i: nat)
    ensures IsAliasShape(Alias(i)) && AliasNumber(Alias(i)) == i
  {
    var t := Alias(i);
    assert t[|Prefix|..|t| - |Domain|] == Decimal(i);
    DecimalRoundTrip(i);
  }

  /** Every generated address passes is_valid_alias, also with one
      trailing newline. */
  lemma GeneratedAliasesValid(i: nat)
    ensures IsValidAlias(Alias(i))
    ensures IsValidAlias(Alias(i) + "\n")
  {
    AliasRoundTrip(i);
    assert (Alias(i) + "\n")[..|Alias(i) + "\n"| - 1] == Alias(i);
  }

  /** Distinct indices give distinct addresses. */
  lemma AliasInjective(i: nat, j: nat)
    requires i != j
    ensures Alias(i) != Alias(j)
  {
    AliasRoundTrip(i);
    AliasRoundTrip(j);
  }

  /** How the script's `json.load` ended: no file, a parse error, or an
      iterable whose items it enumerates. */
  datatype Loaded<T> = NoFile | Corrupt | Items(items: seq<T>)

  /** The rewrite loop over the first `n` items, as `fixed_emails` grows. */
  function Rewritten(n: nat): (r: seq<AddressRecord>)
    ensures |r| == n
    ensures forall i :: 0 <= i < n ==> r[i].address == Alias(i + 1) && r[i].isUsed == Some(false)
  {
    if n == 0 then [] else Rewritten(n - 1) + [AddressRecord(Alias(n), Some(false))]
  }

  /** The script: the list it writes, or None when `json.load` raises and
      nothing is written. A missing file counts as an empty list; the
      items' contents are never read. */
  function FixEmails<T>(loaded: Loaded<T>): (r: Option<seq<AddressRecord>>)
    ensures loaded.Corrupt? <==> r.None?
    ensures loaded.NoFile? ==> r == Some([])
    ensures loaded.Items? ==> r.Some? && |r.value| == |loaded.items|
    ensures loaded.Items? ==> forall i :: 0 <= i < |loaded.items| ==>
              r.value[i].address == Alias(i + 1) && r.value[i].isUsed == Some(false)
  {
    match loaded
    case NoFile => Some(Rewritten(0))
    case Corrupt => None
    case Items(items) => Some(Rewritten(|items|))
  }

  /** The rewritten file: entry i carries alias i + 1, is free, passes
      is_valid_alias, and no two entries share an address. */
  lemma RewrittenWellFormed(n: nat)
    ensures forall i :: 0 <= i < n ==> IsValidAlias(Rewritten(n)[i].address) && IsFree(Rewritten(n)[i])
    ensures forall i, j :: 0 <= i < j < n ==> Rewritten(n)[i].address != Rewritten(n)[j].address
  {
    forall i | 0 <= i < n
      ensures IsValidAlias(Rewritten(n)[i].address) && IsFree(Rewritten(n)[i])
    {
      GeneratedAliasesValid(i + 1);
    }
    forall i, j | 0 <= i < j < n
      ensures Rewritten(n)[i].address != Rewritten(n)[j].address
    {
      AliasInjective(i + 1, j + 1);
    }
  }

  /** After the rewrite, new-address hands out the first alias. */
  lemma FixedPoolHandsOutFirstAlias<T>(items: seq<T>, s: Inboxes)
    requires |items| > 0 && Valid(s)
    ensures NewAddress(Some(Entries(FixEmails(Items(items)).value)), s).response == Assigned(Alias(1))
  {
    RewrittenWellFormed(|items|);
  }
}

=== FILE: client.dfy ===
/** The inbox state of the web client (frontend/src/App.js): the list of
    messages shown, the live-update rule and the session reset. */
module Client {
  import opened Wrappers
  import opened InboxStore

  const Placeholder := "(no subject)"

  /** The subject filter of uniqueEmails: a truthy subject other than the
      placeholder. */
  predicate Shown(e: Email) {
    e.subject != "" && e.subject != Placeholder
  }

  function Ids(xs: seq<Email>): set<string> {
    set i | 0 <= i < |xs| :: xs[i].id
  }

  lemma IdsAppend(xs: seq<Email>, e: Email)
    ensures Ids(xs + [e]) == Ids(xs) + {e.id}
  {
    assert forall i :: 0 <= i < |xs| ==> (xs + [e])[i] == xs[i];
    assert (xs + [e])[|xs|] == e;
  }

  /** Reference definition of uniqueEmails, one entry at a time: an entry
      is kept when it passes the subject filter and no kept entry has its
      id. */
  function UniqueOf(inbox: seq<Email>): seq<Email>
    decreases |inbox|
  {
    if |inbox| == 0 then []
    else
      var kept := UniqueOf(inbox[..|inbox| - 1]);
      var e := inbox[|inbox| - 1];
      if Shown(e) && e.id !in Ids(kept) then kept + [e] else kept
  }

  /** `a` is `b` with some entries left out, order kept. */
  predicate IsSubsequence(a: seq<Email>, b: seq<Email>)
    decreases |b|
  {
    if |a| == 0 then true
    else if |b| == 0 then false
    else (a[|a| - 1] == b[|b| - 1] && IsSubsequence(a[..|a| - 1], b[..|b| - 1]))
         || IsSubsequence(a, b[..|b| - 1])
  }

  /** Entry `j` passes the filter and no earlier entry with its id does. */
  ghost predicate FirstShown(inbox: seq<Email>, j: int) {
    && 0 <= j < |inbox|
    && Shown(inbox[j])
    && forall k :: 0 <= k < j ==> !(Shown(inbox[k]) && inbox[k].id == inbox[j].id)
  }

  /** The positions of the earliest passing entries, in increasing order. */
  ghost function FirstShownPositions(inbox: seq<Email>): (r: seq<nat>)
    ensures forall i, i' :: 0 <= i < i' < |r| ==> r[i] < r[i']
    ensures forall i :: 0 <= i < |r| ==> FirstShown(inbox, r[i])
    ensures forall j :: FirstShown(inbox, j) ==> j in r
    decreases |inbox|
  {
    if |inbox| == 0 then []
    else
      var n := |inbox| - 1;
      var init := inbox[..n];
      assert forall k :: 0 <= k < n ==> init[k] == inbox[k];
      assert forall j :: 0 <= j < n ==> (FirstShown(init, j) <==> FirstShown(inbox, j));
      FirstShownPositions(init) + (if FirstShown(inbox, n) then [n] else [])
  }

  /** No two entries share an id. */
  ghost predicate DistinctIds(xs: seq<Email>) {
    forall i, j :: 0 <= i < j < |xs| ==> xs[i].id != xs[j].id
  }

  /** The uniqueEmails memo, as the loop computes it. */
  method UniqueEmails(inbox: seq<Email>) returns (unique: seq<Email>)
    ensures unique == UniqueOf(inbox)
    ensures |unique| == |FirstShownPositions(inbox)|
    ensures forall i :: 0 <= i < |unique| ==> unique[i] == inbox[FirstShownPositions(inbox)[i]]
    ensures IsSubsequence(unique, inbox)
    ensures DistinctIds(unique)
    ensures forall i :: 0 <= i < |unique| ==> Shown(unique[i])
    ensures forall j :: FirstShown(inbox, j) ==> inbox[j] in unique
    ensures forall i :: 0 <= i < |unique| ==> exists j :: FirstShown(inbox, j) && inbox[j] == unique[i]
  {
    var seenIds: set<string> := {};
    unique := [];
    for i := 0 to |inbox|
      invariant unique == UniqueOf(inbox[..i])
      invariant seenIds == Ids(unique)
    {
      var email := inbox[i];
      assert inbox[..i + 1][..i] == inbox[..i];
      IdsAppend(unique, email);
      if Shown(email) && email.id !in seenIds {
        seenIds := seenIds + {email.id};
        unique := unique + [email];
      }
    }
    assert inbox[..|inbox|] == inbox;
    UniqueIsSubsequence(inbox);
    UniqueHasDistinctIds(inbox);
    UniqueKeepsFirstShown(inbox);
    UniqueOnlyFirstShown(inbox);
    UniqueAtFirstShown(inbox);
  }

  /** The kept entries are the earliest passing entries, taken in inbox
      order: entry i of the result is the inbox entry at the i-th such
      position. */
  lemma {:induction false} UniqueAtFirstShown(inbox: seq<Email>)
    ensures |UniqueOf(inbox)| == |FirstShownPositions(inbox)|
    ensures forall i :: 0 <= i < |UniqueOf(inbox)| ==> UniqueOf(inbox)[i] == inbox[FirstShownPositions(inbox)[i]]
    decreases |inbox|
  {
    if |inbox| > 0 {
      var n := |inbox| - 1;
      var init := inbox[..n];
      UniqueAtFirstShown(init);
      UniqueIds(init);
      FirstShownLast(inbox);
      AtPositionsExtend(UniqueOf(init), FirstShownPositions(init), inbox, FirstShown(inbox, n));
    }
  }

  /** The last entry is an earliest passing entry exactly when it passes
      and no earlier entry with its id does. */
  lemma FirstShownLast(inbox: seq<Email>)
    requires |inbox| > 0
    ensures var n := |inbox| - 1;
            FirstShown(inbox, n) <==> Shown(inbox[n]) && inbox[n].id !in ShownIds(inbox[..n])
  {
    var n := |inbox| - 1;
    assert forall k :: 0 <= k < n ==> inbox[..n][k] == inbox[k];
  }

  /** Extending a list taken at increasing positions of the first `n`
      entries by entry `n`, or not. */
  lemma AtPositionsExtend(u: seq<Email>, ps: seq<nat>, inbox: seq<Email>, take: bool)
    requires |inbox| > 0
    requires |u| == |ps|
    requires forall i :: 0 <= i < |ps| ==> ps[i] < |inbox| - 1 && u[i] == inbox[..|inbox| - 1][ps[i]]
    ensures var u' := if take then u + [inbox[|inbox| - 1]] else u;
            var ps' := if take then ps + [|inbox| - 1] else ps;
            |u'| == |ps'| && forall i :: 0 <= i < |u'| ==> ps'[i] < |inbox| && u'[i] == inbox[ps'[i]]
  {
  }

  lemma {:induction false} UniqueIsSubsequence(inbox: seq<Email>)
    ensures IsSubsequence(UniqueOf(inbox), inbox)
    decreases |inbox|
  {
    if |inbox| > 0 {
      var kept := UniqueOf(inbox[..|inbox| - 1]);
      UniqueIsSubsequence(inbox[..|inbox| - 1]);
      var u := UniqueOf(inbox);
      if u != kept {
        assert u[..|u| - 1] == kept;
      } else if |u| > 0 {
        assert IsSubsequence(u, inbox[..|inbox| - 1]);
      }
    }
  }

  lemma {:induction false} UniqueHasDistinctIds(inbox: seq<Email>)
    ensures DistinctIds(UniqueOf(inbox))
    decreases |inbox|
  {
    if |inbox| > 0 {
      var kept := UniqueOf(inbox[..|inbox| - 1]);
      UniqueHasDistinctIds(inbox[..|inbox| - 1]);
      var e := inbox[|inbox| - 1];
      if Shown(e) && e.id !in Ids(kept) {
        assert forall i :: 0 <= i < |kept| ==> kept[i].id in Ids(kept);
      }
    }
  }

  /** The ids of the entries that pass the filter. */
  ghost function ShownIds(xs: seq<Email>): set<string> {
    set k | 0 <= k < |xs| && Shown(xs[k]) :: xs[k].id
  }

  /** The kept entries carry exactly the ids of the entries that pass the
      filter: an id is seen once some entry with it passes. */
  lemma {:induction false} UniqueIds(inbox: seq<Email>)
    ensures Ids(UniqueOf(inbox)) == ShownIds(inbox)
    decreases |inbox|
  {
    if |inbox| > 0 {
      var n := |inbox| - 1;
      var init := inbox[..n];
      var e := inbox[n];
      UniqueIds(init);
      IdsAppend(UniqueOf(init), e);
      assert forall k :: 0 <= k < n ==> init[k] == inbox[k];
      assert ShownIds(inbox) == ShownIds(init) + (if Shown(e) then {e.id} else {});
    } else {
      assert UniqueOf(inbox) == [];
    }
  }

  /** For every id, the earliest entry that passes the filter is kept. */
  lemma {:induction false} UniqueKeepsFirstShown(inbox: seq<Email>)
    ensures forall j :: FirstShown(inbox, j) ==> inbox[j] in UniqueOf(inbox)
    decreases |inbox|
  {
    if |inbox| > 0 {
      var n := |inbox| - 1;
      var init := inbox[..n];
      var kept := UniqueOf(init);
      var e := inbox[n];
      UniqueKeepsFirstShown(init);
      UniqueIds(init);
      var u := UniqueOf(inbox);
      assert u == kept || u == kept + [e];
      forall j | FirstShown(inbox, j)
        ensures inbox[j] in u
      {
        if j < n {
          assert init[j] == inbox[j];
          assert forall k :: 0 <= k < j ==> init[k] == inbox[k];
          assert FirstShown(init, j);
          assert inbox[j] in kept;
        } else {
          assert forall k :: 0 <= k < n ==> init[k] == inbox[k];
          assert e.id !in ShownIds(init);
          assert u == kept + [e];
        }
      }
    }
  }

  /** Only such earliest entries are kept. */
  lemma {:induction false} UniqueOnlyFirstShown(inbox: seq<Email>)
    ensures forall i :: 0 <= i < |UniqueOf(inbox)| ==>
              exists j :: FirstShown(inbox, j) && inbox[j] == UniqueOf(inbox)[i]
    decreases |inbox|
  {
    if |inbox| > 0 {
      var n := |inbox| - 1;
      var init := inbox[..n];
      var kept := UniqueOf(init);
      var e := inbox[n];
      UniqueOnlyFirstShown(init);
      UniqueIds(init);
      assert forall j :: 0 <= j < n ==> init[j] == inbox[j];
      assert forall j :: 0 <= j < n && FirstShown(init, j) ==> FirstShown(inbox, j);
      var u := UniqueOf(inbox);
      forall i | 0 <= i < |u|
        ensures exists j :: FirstShown(inbox, j) && inbox[j] == u[i]
      {
        if i < |kept| {
          var j :| FirstShown(init, j) && init[j] == kept[i];
          assert FirstShown(inbox, j) && inbox[j] == u[i];
        } else {
          assert e.id !in ShownIds(init);
          assert FirstShown(inbox, n) && inbox[n] == u[i];
        }
      }
    } else {
      assert UniqueOf(inbox) == [];
    }
  }

  /** A list whose entries all pass the filter with distinct ids is left
      as it is. */
  lemma {:induction false} UniqueOfClean(xs: seq<Email>)
    requires forall i :: 0 <= i < |xs| ==> Shown(xs[i])
    requires DistinctIds(xs)
    ensures UniqueOf(xs) == xs
    decreases |xs|
  {
    if |xs| > 0 {
      var n := |xs| - 1;
      UniqueOfClean(xs[..n]);
      assert xs[n].id !in Ids(xs[..n]);
      assert xs[..n] + [xs[n]] == xs;
    }
  }

  /** Filtering the filtered list changes nothing. */
  lemma UniqueIdempotent(inbox: seq<Email>)
    ensures UniqueOf(UniqueOf(inbox)) == UniqueOf(inbox)
  {
    UniqueHasDistinctIds(inbox);
    UniqueOnlyFirstShown(inbox);
    UniqueOfClean(UniqueOf(inbox));
  }

  /** The `data` of a live update: the message, and its `address` field
      (None when absent). */
  datatype Pushed = Pushed(address: Option<string>, email: Email)

  /** A parsed WebSocket message: its `type` and its `data` (None when
      absent). */
  datatype SocketMessage = SocketMessage(kind: string, data: Option<Pushed>)

  const NewEmail := "NEW_EMAIL"

  /** The inbox update of `ws.onmessage`; `msg` is None when the frame is
      not JSON, which the handler catches. */
  function OnSocketMessage(inbox: seq<Email>, current: string, msg: Option<SocketMessage>): (r: seq<Email>)
    ensures msg.Some? && msg.value.kind == NewEmail && msg.value.data.Some?
            && msg.value.data.value.address == Some(current)
            ==> r == [msg.value.data.value.email] + inbox
    ensures !(msg.Some? && msg.value.kind == NewEmail && msg.value.data.Some?
              && msg.value.data.value.address == Some(current))
            ==> r == inbox
  {
    match msg
    case Some(SocketMessage(kind, Some(Pushed(address, email)))) =>
      if kind == NewEmail && address == Some(current) then [email] + inbox else inbox
    case _ => inbox
  }

  /** A message pushed in front of the inbox that passes the filter is the
      first one shown. */
  lemma {:induction false} PushedShownFirst(e: Email, inbox: seq<Email>)
    requires Shown(e)
    ensures |UniqueOf([e] + inbox)| > 0 && UniqueOf([e] + inbox)[0] == e
    decreases |inbox|
  {
    if |inbox| == 0 {
      assert UniqueOf([e]) == UniqueOf([]) + [e];
    } else {
      var xs := [e] + inbox;
      assert xs[..|xs| - 1] == [e] + inbox[..|inbox| - 1];
      PushedShownFirst(e, inbox[..|inbox| - 1]);
    }
  }

  /** The client session state that resetSession touches. */
  datatype Session = Session(currentAddress: string, inbox: seq<Email>, selected: Option<Email>,
                             error: string, success: string)

  /** resetSession: empty inbox, nothing selected, no notification. */
  function ResetSession(s: Session): (r: Session)
    ensures r.inbox == [] && r.selected == None && r.error == "" && r.success == ""
    ensures r.currentAddress == s.currentAddress
  {
    s.(inbox := [], selected := None, error := "", success := "")
  }
}

=== FILE: inbox_store.dfy ===
/** The server's in-memory `receivedEmails` object: one inbox per tracked
    address, newest message first (backend/server.js). */
module InboxStore {
  import opened Wrappers
  import opened Text
  import opened Search

  /** A stored message, as the webhook builds it. */
  datatype Email = Email(from: string, subject: string, body: string, date: string, id: string)

  /** The inbox object. `keys` is its key order, taken as insertion order
      (`Object.keys` lists integer-like keys first, which the model does
      not follow); that order decides which key a message is routed to
      when two keys normalise alike. */
  datatype Inboxes = Inboxes(keys: seq<string>, boxes: map<string, seq<Email>>)

  /** The key order lists every key of the object exactly once. */
  ghost predicate Valid(s: Inboxes) {
    && (forall i, j :: 0 <= i < j < |s.keys| ==> s.keys[i] != s.keys[j])
    && (forall k :: k in s.boxes <==> k in s.keys)
  }

  const Empty := Inboxes([], map[])

  /** The inbox read: `receivedEmails[address] || []`, by exact key. */
  function Read(s: Inboxes, address: string): (r: seq<Email>)
    ensures address !in s.boxes ==> r == []
    ensures address in s.boxes ==> r == s.boxes[address]
  {
    if address in s.boxes then s.boxes[address] else []
  }

  /** Creates an empty inbox unless one already exists. */
  function Open(s: Inboxes, address: string): (r: Inboxes)
    requires Valid(s)
    ensures Valid(r)
    ensures address in r.boxes
    ensures r.keys == if address in s.boxes then s.keys else s.keys + [address]
    ensures forall k :: Read(r, k) == Read(s, k)
  {
    if address in s.boxes then s
    else Inboxes(s.keys + [address], s.boxes[address := []])
  }

  /** `keys` without `a`, order kept. */
  function Without(keys: seq<string>, a: string): (r: seq<string>)
    ensures forall x :: x in r <==> x in keys && x != a
    ensures (forall i, j :: 0 <= i < j < |keys| ==> keys[i] != keys[j])
            ==> forall i, j :: 0 <= i < j < |r| ==> r[i] != r[j]
  {
    if |keys| == 0 then []
    else if keys[0] == a then Without(keys[1..], a)
    else
      var rest := Without(keys[1..], a);
      assert keys[0] !in keys[1..] ==> keys[0] !in rest;
      [keys[0]] + rest
  }

  /** `delete receivedEmails[address]`. */
  function Remove(s: Inboxes, address: string): (r: Inboxes)
    requires Valid(s)
    ensures Valid(r)
    ensures address !in r.boxes
    ensures r.boxes.Keys == s.boxes.Keys - {address}
    ensures forall k :: k != address ==> Read(r, k) == Read(s, k)
  {
    Inboxes(Without(s.keys, address), s.boxes - {address})
  }

  /** The index of the first key, in key order, whose trimmed, lowercased
      form equals `target`. */
  function KeyIndex(keys: seq<string>, target: string): (r: Option<nat>)
    ensures r.Some? ==> r.value < |keys| && Canonical(keys[r.value]) == target
                        && forall j :: 0 <= j < r.value ==> Canonical(keys[j]) != target
    ensures r.None? ==> forall j :: 0 <= j < |keys| ==> Canonical(keys[j]) != target
  {
    FirstIndex(keys, MatchesKey(target))
  }

  /** The routing test on one key. */
  function MatchesKey(target: string): string -> bool {
    key => Canonical(key) == target
  }

  /** `keys[i]` normalises to `target` and no key before it does. */
  ghost predicate IsFirstMatch(keys: seq<string>, target: string, i: int) {
    && 0 <= i < |keys|
    && Canonical(keys[i]) == target
    && forall j :: 0 <= j < i ==> Canonical(keys[j]) != target
  }

  /** `k` is the first key, in key order, that normalises to `target`. */
  ghost predicate IsFirstMatchingKey(keys: seq<string>, target: string, k: string) {
    exists i :: IsFirstMatch(keys, target, i) && keys[i] == k
  }

  /** The inbox key a message for `target` goes to, if any. */
  function Route(s: Inboxes, target: string): (r: Option<string>)
    requires Valid(s)
    ensures r.Some? ==> r.value in s.boxes && Canonical(r.value) == target
    ensures r.Some? ==> IsFirstMatchingKey(s.keys, target, r.value)
    ensures r.None? ==> forall k :: k in s.boxes ==> Canonical(k) != target
  {
    match KeyIndex(s.keys, target)
    case Some(i) => Some(s.keys[i])
    case None => None
  }

  /** Unshifts `e` onto the inbox `target` routes to. Nothing changes when
      no key matches, or when the first matching key is "" (the server
      tests the found key for truthiness). There is no check for a
      message already stored. */
  function Deliver(s: Inboxes, target: string, e: Email): (r: Inboxes)
    requires Valid(s)
    ensures Valid(r) && r.keys == s.keys && r.boxes.Keys == s.boxes.Keys
    ensures Route(s, target).None? || Route(s, target).value == "" ==> r == s
    ensures Route(s, target).Some? && Route(s, target).value != "" ==>
      && Read(r, Route(s, target).value) == [e] + Read(s, Route(s, target).value)
      && forall k :: k != Route(s, target).value ==> Read(r, k) == Read(s, k)
  {
    match Route(s, target)
    case None => s
    case Some(k) =>
      if k == "" then s
      else
        var boxes := s.boxes[k := [e] + s.boxes[k]];
        assert boxes.Keys == s.boxes.Keys;
        Inboxes(s.keys, boxes)
  }

  /** Removing a value other than the first element satisfying `p`
      leaves that element the first to satisfy it. */
  lemma {:induction false} WithoutKeepsFirstMatch(keys: seq<string>, a: string, p: string -> bool)
    requires FirstIndex(keys, p).Some? && keys[FirstIndex(keys, p).value] != a
    ensures FirstIndex(Without(keys, a), p).Some?
    ensures Without(keys, a)[FirstIndex(Without(keys, a), p).value] == keys[FirstIndex(keys, p).value]
    decreases |keys|
  {
    var i := FirstIndex(keys, p).value;
    var tail := keys[1..];
    var rest := Without(tail, a);
    if i > 0 {
      assert forall j :: 0 <= j < |tail| ==> tail[j] == keys[j + 1];
      assert FirstIndex(tail, p) == Some(i - 1);
      WithoutKeepsFirstMatch(tail, a, p);
      if keys[0] != a {
        var v := FirstIndex(rest, p).value;
        var w := [keys[0]] + rest;
        assert Without(keys, a) == w;
        assert forall j :: 1 <= j < |w| ==> w[j] == rest[j - 1];
        assert FirstIndex(w, p) == Some(v + 1);
      }
    } else {
      assert Without(keys, a) == [keys[0]] + rest;
    }
  }

  /** Deleting an inbox does not re-route mail for any other inbox: a
      message that went to a key other than the deleted one still goes
      there, and one that matched no key still matches none. */
  lemma RemoveKeepsRoute(s: Inboxes, address: string, target: string)
    requires Valid(s)
    ensures Route(s, target).Some? && Route(s, target).value != address
            ==> Route(Remove(s, address), target) == Route(s, target)
    ensures Route(s, target).None? ==> Route(Remove(s, address), target).None?
  {
    if Route(s, target).Some? && Route(s, target).value != address {
      WithoutKeepsFirstMatch(s.keys, address, MatchesKey(target));
    }
  }

  /** Removing a key that is not there changes nothing. */
  lemma {:induction false} WithoutAbsent(keys: seq<string>, a: string)
    requires a !in keys
    ensures Without(keys, a) == keys
  {
    if |keys| > 0 {
      WithoutAbsent(keys[1..], a);
    }
  }
}

=== FILE: mime.dfy ===
/** The Gmail message payload as a recursive MIME part tree, with the
    header lookup and the body search the webhook applies to it
    (backend/server.js, parseHeader and parseMessageBody). */
module Mime {
  import opened Wrappers
  import opened Text
  import opened Search

  datatype Header = Header(name: string, value: string)

  /** One node of the payload. `headers` is None when the API omitted the
      list. `data` is the still-encoded `body.data` ("" when `body` or
      `body.data` is absent). `parts` is [] when the node has no children,
      which the server treats the same as an absent `parts` field. */
  datatype Part = Part(mimeType: string, headers: Option<seq<Header>>, data: string, parts: seq<Part>)

  const Alternative := "multipart/alternative"
  const Html := "text/html"

  /** The header-name comparison: both sides lowercased. */
  predicate NameMatches(h: Header, name: string) {
    Lower(h.name) == Lower(name)
  }

  /** parseHeader: the value of the first header whose name matches `name`
      case-insensitively, or "" when there are no headers or none matches. */
  function ParseHeader(headers: Option<seq<Header>>, name: string): (r: string)
    ensures headers.None? ==> r == ""
    ensures headers.Some? ==>
      forall i :: 0 <= i < |headers.value| && NameMatches(headers.value[i], name)
                  && (forall j :: 0 <= j < i ==> !NameMatches(headers.value[j], name))
        ==> r == headers.value[i].value
    ensures headers.Some? && (forall i :: 0 <= i < |headers.value| ==> !NameMatches(headers.value[i], name))
      ==> r == ""
  {
    match headers
    case None => ""
    case Some(hs) =>
      match FirstIndex(hs, h => NameMatches(h, name))
      case Some(i) => hs[i].value
      case None => ""
  }

  /** `parts.find(p => p.mimeType === 'text/html')`: the index of the first
      HTML child. */
  function FirstHtml(ps: seq<Part>): (r: Option<nat>)
    ensures r.Some? ==> r.value < |ps| && ps[r.value].mimeType == Html
                        && forall k :: 0 <= k < r.value ==> ps[k].mimeType != Html
    ensures r.None? ==> forall k :: 0 <= k < |ps| ==> ps[k].mimeType != Html
  {
    FirstIndex(ps, (p: Part) => p.mimeType == Html)
  }

  /** The body found in one part: the recursive case of parseMessageBody.
      A node with children never looks at its own data; a
      multipart/alternative node first tries its first HTML child. */
  function Body(decode: string -> string, p: Part): string
    decreases p, 1
  {
    if |p.parts| > 0 then
      var html := if p.mimeType == Alternative then FirstHtml(p.parts) else None;
      if html.Some? && Body(decode, p.parts[html.value]) != "" then Body(decode, p.parts[html.value])
      else FirstBody(decode, p.parts, 0)
    else if p.data != "" then decode(p.data)
    else ""
  }

  /** The loop over the children `ps` from index `i` on: the first
      non-empty body, or "". */
  function FirstBody(decode: string -> string, ps: seq<Part>, i: nat): string
    requires i <= |ps|
    decreases ps, 0, |ps| - i
  {
    if i == |ps| then ""
    else if Body(decode, ps[i]) != "" then Body(decode, ps[i])
    else FirstBody(decode, ps, i + 1)
  }

  /** parseMessageBody: a null payload gives "". */
  function ParseMessageBody(decode: string -> string, payload: Option<Part>): (r: string)
    ensures payload.None? ==> r == ""
    ensures payload.Some? && |payload.value.parts| == 0 && payload.value.data == "" ==> r == ""
  {
    match payload
    case None => ""
    case Some(p) => Body(decode, p)
  }

  /** Child `i` is the first child whose search yields a body. */
  ghost predicate FirstNonEmpty(decode: string -> string, ps: seq<Part>, i: int) {
    && 0 <= i < |ps|
    && Body(decode, ps[i]) != ""
    && forall j :: 0 <= j < i ==> Body(decode, ps[j]) == ""
  }

  /** The loop over the children returns the body of the first child that
      yields one, and "" when none does. */
  lemma {:induction false} FirstBodyIsFirstNonEmpty(decode: string -> string, ps: seq<Part>, i: nat)
    requires i <= |ps|
    requires forall j :: 0 <= j < i ==> Body(decode, ps[j]) == ""
    ensures forall k :: FirstNonEmpty(decode, ps, k) ==> FirstBody(decode, ps, i) == Body(decode, ps[k])
    ensures (forall k :: 0 <= k < |ps| ==> Body(decode, ps[k]) == "") ==> FirstBody(decode, ps, i) == ""
    decreases |ps| - i
  {
    if i < |ps| && Body(decode, ps[i]) == "" {
      FirstBodyIsFirstNonEmpty(decode, ps, i + 1);
    }
  }

  /** A multipart/alternative node whose first HTML child yields a body
      returns exactly that body, wherever that child sits among its
      siblings. */
  lemma AlternativePrefersHtml(decode: string -> string, p: Part, k: nat)
    requires p.mimeType == Alternative
    requires k < |p.parts| && p.parts[k].mimeType == Html
    requires forall j :: 0 <= j < k ==> p.parts[j].mimeType != Html
    requires Body(decode, p.parts[k]) != ""
    ensures ParseMessageBody(decode, Some(p)) == Body(decode, p.parts[k])
  {
    assert FirstHtml(p.parts) == Some(k);
  }

  /** Every other node with children returns the first non-empty body over
      its children, left to right, or "" when there is none. */
  lemma ChildrenSearchedInOrder(decode: string -> string, p: Part)
    requires |p.parts| > 0
    requires p.mimeType != Alternative || FirstHtml(p.parts).None?
             || Body(decode, p.parts[FirstHtml(p.parts).value]) == ""
    ensures forall k :: FirstNonEmpty(decode, p.parts, k) ==> ParseMessageBody(decode, Some(p)) == Body(decode, p.parts[k])
    ensures (forall k :: 0 <= k < |p.parts| ==> Body(decode, p.parts[k]) == "") ==> ParseMessageBody(decode, Some(p)) == ""
  {
    FirstBodyIsFirstNonEmpty(decode, p.parts, 0);
  }

  /** A node with children never uses its own `body.data`. */
  lemma OwnDataIgnoredWithChildren(decode: string -> string, p: Part, data: string)
    requires |p.parts| > 0
    ensures ParseMessageBody(decode, Some(p.(data := data))) == ParseMessageBody(decode, Some(p))
  {
  }

  /** A leaf with data yields exactly its decoded data. */
  lemma LeafDecodesOwnData(decode: string -> string, p: Part)
    requires |p.parts| == 0 && p.data != ""
    ensures ParseMessageBody(decode, Some(p)) == decode(p.data)
  {
  }

  /** The non-empty `body.data` strings of the leaves below `p`. */
  ghost function Leaves(p: Part): set<string>
    decreases p, 1
  {
    if |p.parts| > 0 then LeavesFrom(p.parts, 0)
    else if p.data != "" then {p.data}
    else {}
  }

  ghost function LeavesFrom(ps: seq<Part>, i: nat): set<string>
    requires i <= |ps|
    decreases ps, 0, |ps| - i
  {
    if i == |ps| then {} else Leaves(ps[i]) + LeavesFrom(ps, i + 1)
  }

  /** Whatever body the search returns is the decoding of the data of some
      leaf of the tree: nothing is invented. */
  lemma {:induction false} BodyComesFromLeaf(decode: string -> string, p: Part)
    ensures Body(decode, p) == "" || exists d :: d in Leaves(p) && Body(decode, p) == decode(d)
    decreases p, 1
  {
    if |p.parts| > 0 {
      var html := if p.mimeType == Alternative then FirstHtml(p.parts) else None;
      if html.Some? && Body(decode, p.parts[html.value]) != "" {
        BodyComesFromLeaf(decode, p.parts[html.value]);
        LeavesFromCovers(p.parts, 0, html.value);
      } else {
        FirstBodyComesFromLeaf(decode, p.parts, 0);
      }
    }
  }

  lemma {:induction false} FirstBodyComesFromLeaf(decode: string -> string, ps: seq<Part>, i: nat)
    requires i <= |ps|
    ensures FirstBody(decode, ps, i) == "" || exists d :: d in LeavesFrom(ps, i) && FirstBody(decode, ps, i) == decode(d)
    decreases ps, 0, |ps| - i
  {
    if i < |ps| {
      if Body(decode, ps[i]) != "" {
        BodyComesFromLeaf(decode, ps[i]);
      } else {
        FirstBodyComesFromLeaf(decode, ps, i + 1);
      }
    }
  }

  lemma {:induction false} LeavesFromCovers(ps: seq<Part>, i: nat, k: nat)
    requires i <= k < |ps|
    ensures Leaves(ps[k]) <= LeavesFrom(ps, i)
    decreases k - i
  {
    if i < k {
      LeavesFromCovers(ps, i + 1, k);
    }
  }
}

=== FILE: pool.dfy ===
/** The address pool endpoints of backend/server.js: `/api/new-address`,
    `/api/mark-used` and `initializeActiveInboxes`, over the contents of
    emails.json and the inbox object. */
module Pool {
  import opened Wrappers
  import opened Search
  import opened InboxStore

  /** One entry of emails.json. `address` is "" when the field is missing
      or empty (falsy); `isUsed` is Some(b) when `is_used` is the boolean b
      and None for any other value. */
  datatype AddressRecord = AddressRecord(address: string, isUsed: Option<bool>)

  /** emails.json after `JSON.parse`: an array of entries, or some other
      JSON value. */
  datatype PoolFile = Entries(records: seq<AddressRecord>) | NotArray

  /** The HTTP outcome of an endpoint. */
  datatype Response = Assigned(address: string) | Retired | BadRequest | NotFound | ServerError

  /** The file, the inboxes and the response after one request. */
  datatype Reply = Reply(disk: Option<PoolFile>, inboxes: Inboxes, response: Response)

  /** loadEmails: a missing or unparseable file reads as an empty array;
      a file that parses is taken as it is. */
  function LoadEmails(disk: Option<PoolFile>): (r: PoolFile)
    ensures disk.None? ==> r == Entries([])
    ensures disk.Some? ==> r == disk.value
  {
    disk.GetOr(Entries([]))
  }

  /** `email && email.address && email.is_used === false`. */
  predicate IsFree(r: AddressRecord) {
    r.address != "" && r.isUsed == Some(false)
  }

  /** `emails.find(...)` for the free test, as an index. */
  function FirstFree(rs: seq<AddressRecord>): (r: Option<nat>)
    ensures r.Some? ==> r.value < |rs| && IsFree(rs[r.value])
                        && forall j :: 0 <= j < r.value ==> !IsFree(rs[j])
    ensures r.None? ==> forall j :: 0 <= j < |rs| ==> !IsFree(rs[j])
  {
    FirstIndex(rs, IsFree)
  }

  /** `emails.findIndex(email => email.address === address)`. */
  function IndexOf(rs: seq<AddressRecord>, address: string): (r: Option<nat>)
    ensures r.Some? ==> r.value < |rs| && rs[r.value].address == address
                        && forall j :: 0 <= j < r.value ==> rs[j].address != address
    ensures r.None? ==> forall j :: 0 <= j < |rs| ==> rs[j].address != address
  {
    FirstIndex(rs, (e: AddressRecord) => e.address == address)
  }

  /** Entry `i` with `is_used` set to true. */
  function MarkEntry(rs: seq<AddressRecord>, i: nat): seq<AddressRecord>
    requires i < |rs|
  {
    rs[i := rs[i].(isUsed := Some(true))]
  }

  /** `/api/new-address`: hands out the first free entry, marks it used,
      saves the file, and opens an inbox for it unless one exists. */
  function NewAddress(disk: Option<PoolFile>, s: Inboxes): (r: Reply)
    requires Valid(s)
    ensures Valid(r.inboxes)
    ensures LoadEmails(disk).NotArray? ==> r == Reply(disk, s, ServerError)
    ensures LoadEmails(disk).Entries? && FirstFree(LoadEmails(disk).records).None?
            ==> r == Reply(disk, s, NotFound)
    ensures LoadEmails(disk).Entries? && FirstFree(LoadEmails(disk).records).Some?
            ==> r.response.Assigned?
    ensures r.response.Assigned? ==>
              && LoadEmails(disk).Entries?
              && var rs := LoadEmails(disk).records;
                 forall i :: 0 <= i < |rs| && IsFree(rs[i]) && (forall j :: 0 <= j < i ==> !IsFree(rs[j])) ==>
                   && r.response.address == rs[i].address
                   && r.disk == Some(Entries(MarkEntry(rs, i)))
    ensures r.response.Assigned? ==>
              && r.inboxes == Open(s, r.response.address)
              && r.response.address in r.inboxes.boxes
              && forall k :: Read(r.inboxes, k) == Read(s, k)
    ensures r.response.Assigned? || r.response == NotFound || r.response == ServerError
  {
    match LoadEmails(disk)
    case NotArray => Reply(disk, s, ServerError)
    case Entries(rs) =>
      match FirstFree(rs)
      case None => Reply(disk, s, NotFound)
      case Some(i) => Reply(Some(Entries(MarkEntry(rs, i))), Open(s, rs[i].address), Assigned(rs[i].address))
  }

  /** `/api/mark-used`: retires the first entry whose address is exactly
      `address` and deletes its inbox. */
  function MarkUsed(address: string, disk: Option<PoolFile>, s: Inboxes): (r: Reply)
    requires Valid(s)
    ensures Valid(r.inboxes)
    ensures address == "" ==> r == Reply(disk, s, BadRequest)
    ensures address != "" && LoadEmails(disk).NotArray? ==> r == Reply(disk, s, ServerError)
    ensures address != "" && LoadEmails(disk).Entries? && IndexOf(LoadEmails(disk).records, address).None?
            ==> r == Reply(disk, s, NotFound)
    ensures r.response == Retired <==>
              address != "" && LoadEmails(disk).Entries? && IndexOf(LoadEmails(disk).records, address).Some?
    ensures r.response == Retired ==>
              && r.inboxes == Remove(s, address)
              && address !in r.inboxes.boxes
              && (forall k :: k != address ==> Read(r.inboxes, k) == Read(s, k))
              && var rs := LoadEmails(disk).records;
                 forall i :: 0 <= i < |rs| && rs[i].address == address && (forall j :: 0 <= j < i ==> rs[j].address != address)
                   ==> r.disk == Some(Entries(MarkEntry(rs, i)))
    ensures r.response != Retired ==> r.disk == disk && r.inboxes == s
  {
    if address == "" then Reply(disk, s, BadRequest)
    else match LoadEmails(disk)
      case NotArray => Reply(disk, s, ServerError)
      case Entries(rs) =>
        match IndexOf(rs, address)
        case None => Reply(disk, s, NotFound)
        case Some(i) => Reply(Some(Entries(MarkEntry(rs, i))), Remove(s, address), Retired)
  }

  /** An entry that gets an inbox on start-up: `is_used === true` and a
      truthy address. */
  predicate IsActive(r: AddressRecord) {
    r.isUsed == Some(true) && r.address != ""
  }

  /** The addresses of the active entries from index `i` on. */
  ghost function ActiveFrom(rs: seq<AddressRecord>, i: nat): set<string> {
    set j | i <= j < |rs| && IsActive(rs[j]) :: rs[j].address
  }

  /** The start-up loop from entry `i` on. */
  function OpenActive(acc: Inboxes, rs: seq<AddressRecord>, i: nat): (r: Inboxes)
    requires Valid(acc) && i <= |rs|
    ensures Valid(r)
    ensures r.boxes.Keys == acc.boxes.Keys + ActiveFrom(rs, i)
    ensures forall k :: Read(r, k) == Read(acc, k)
    ensures r.keys == ActiveKeys(acc.keys, rs, i)
    decreases |rs| - i
  {
    if i == |rs| then acc
    else
      var next := if IsActive(rs[i]) then Open(acc, rs[i].address) else acc;
      assert ActiveFrom(rs, i) == (if IsActive(rs[i]) then {rs[i].address} else {}) + ActiveFrom(rs, i + 1);
      OpenActive(next, rs, i + 1)
  }

  /** The addresses of the active entries before index `n`. */
  ghost function ActiveUpTo(rs: seq<AddressRecord>, n: nat): set<string>
    requires n <= |rs|
  {
    set j | 0 <= j < n && IsActive(rs[j]) :: rs[j].address
  }

  /** Some entry before index `m` is active with address `k`. */
  ghost predicate ActiveBefore(rs: seq<AddressRecord>, k: string, m: int) {
    exists l :: 0 <= l < m && l < |rs| && IsActive(rs[l]) && rs[l].address == k
  }

  /** `keys` is in the order in which its addresses first occur as active
      entries among the first `n`: whenever `keys[j]` is active at entry
      `m`, every earlier key was already active before `m`. */
  ghost predicate InFileOrder(keys: seq<string>, rs: seq<AddressRecord>, n: int) {
    forall i, j, m :: 0 <= i < j < |keys| && 0 <= m < n && m < |rs|
                      && IsActive(rs[m]) && rs[m].address == keys[j]
                      ==> ActiveBefore(rs, keys[i], m)
  }

  /** One step of the start-up loop keeps the key order: a key is
      appended only at the first active entry with its address. */
  lemma InFileOrderStep(keys: seq<string>, keys': seq<string>, rs: seq<AddressRecord>, n: nat)
    requires n < |rs|
    requires forall k :: k in keys <==> k in ActiveUpTo(rs, n)
    requires InFileOrder(keys, rs, n)
    requires keys' == keys || (IsActive(rs[n]) && rs[n].address !in keys && keys' == keys + [rs[n].address])
    ensures InFileOrder(keys', rs, n + 1)
  {
    forall i, j, m | 0 <= i < j < |keys'| && 0 <= m < n + 1 && m < |rs|
                     && IsActive(rs[m]) && rs[m].address == keys'[j]
      ensures ActiveBefore(rs, keys'[i], m)
    {
      assert keys'[i] == keys[i];
      if j < |keys| {
        assert keys'[j] == keys[j];
        if m == n {
          assert keys[j] in ActiveUpTo(rs, n);
          var l :| 0 <= l < n && IsActive(rs[l]) && rs[l].address == keys[j];
          assert ActiveBefore(rs, keys[i], l);
        }
      } else if m == n {
        assert keys[i] in ActiveUpTo(rs, n);
      }
    }
  }

  /** The key order the start-up loop builds from index `i` on: an
      address is appended at its first active entry. */
  function ActiveKeys(keys: seq<string>, rs: seq<AddressRecord>, i: nat): seq<string>
    requires i <= |rs|
    decreases |rs| - i
  {
    if i == |rs| then keys
    else
      var next := if IsActive(rs[i]) && rs[i].address !in keys then keys + [rs[i].address] else keys;
      ActiveKeys(next, rs, i + 1)
  }

  /** The start-up loop appends each address at its first active entry, so
      the keys come out in file order. */
  lemma {:induction false} ActiveKeysInFileOrder(keys: seq<string>, rs: seq<AddressRecord>, n: nat)
    requires n <= |rs|
    requires forall k :: k in keys <==> k in ActiveUpTo(rs, n)
    requires InFileOrder(keys, rs, n)
    ensures InFileOrder(ActiveKeys(keys, rs, n), rs, |rs|)
    decreases |rs| - n
  {
    if n < |rs| {
      var next := if IsActive(rs[n]) && rs[n].address !in keys then keys + [rs[n].address] else keys;
      assert ActiveUpTo(rs, n + 1) == ActiveUpTo(rs, n) + (if IsActive(rs[n]) then {rs[n].address} else {});
      InFileOrderStep(keys, next, rs, n);
      ActiveKeysInFileOrder(next, rs, n + 1);
    }
  }

  /** initializeActiveInboxes: when the file is an array, the inbox object
      is rebuilt to hold exactly the active addresses, each with an empty
      inbox, keyed in the order of each address's first used entry; otherwise it
      is left as it was. */
  function InitializeActiveInboxes(disk: Option<PoolFile>, s: Inboxes): (r: Inboxes)
    ensures LoadEmails(disk).NotArray? ==> r == s
    ensures LoadEmails(disk).Entries? ==>
              && Valid(r)
              && (forall k :: k in r.boxes <==>
                    exists i :: 0 <= i < |LoadEmails(disk).records| && IsActive(LoadEmails(disk).records[i])
                                && LoadEmails(disk).records[i].address == k)
              && (forall k :: Read(r, k) == [])
              && InFileOrder(r.keys, LoadEmails(disk).records, |LoadEmails(disk).records|)
  {
    match LoadEmails(disk)
    case NotArray => s
    case Entries(rs) =>
      assert ActiveUpTo(rs, 0) == {};
      ActiveKeysInFileOrder([], rs, 0);
      OpenActive(Empty, rs, 0)
  }

  /** A missing or unparseable emails.json reads as an empty pool: both
      endpoints answer 404 and a start-up drops every inbox. */
  lemma MissingPoolFile(address: string, s: Inboxes, before: Inboxes)
    requires Valid(s)
    ensures NewAddress(None, s) == Reply(None, s, NotFound)
    ensures address != "" ==> MarkUsed(address, None, s) == Reply(None, s, NotFound)
    ensures InitializeActiveInboxes(None, before) == Empty
  {
  }

  /** An address handed out is used in the saved file, so after a restart
      it gets an inbox again. */
  lemma AssignedSurvivesRestart(disk: Option<PoolFile>, s: Inboxes, before: Inboxes)
    requires Valid(s)
    requires NewAddress(disk, s).response.Assigned?
    ensures NewAddress(disk, s).response.address in InitializeActiveInboxes(NewAddress(disk, s).disk, before).boxes
  {
    var rs := LoadEmails(disk).records;
    var i := FirstFree(rs).value;
    var rs' := MarkEntry(rs, i);
    assert IsActive(rs'[i]);
  }

  /** Entries are handed out in file order and never twice: after entry
      `i` is handed out, the next free entry lies after it. */
  lemma NewAddressAdvances(disk: Option<PoolFile>, s: Inboxes)
    requires Valid(s)
    requires NewAddress(disk, s).response.Assigned?
    ensures var i := FirstFree(LoadEmails(disk).records).value;
            var next := FirstFree(LoadEmails(NewAddress(disk, s).disk).records);
            next.None? || next.value > i
  {
    var rs := LoadEmails(disk).records;
    var i := FirstFree(rs).value;
    var rs' := MarkEntry(rs, i);
    assert forall j :: 0 <= j <= i ==> !IsFree(rs'[j]);
  }

  /** Retiring an address twice is retiring it once: the second request
      finds the same entry, already used, and no inbox to delete. */
  lemma MarkUsedIdempotent(address: string, disk: Option<PoolFile>, s: Inboxes)
    requires Valid(s)
    requires MarkUsed(address, disk, s).response == Retired
    ensures var once := MarkUsed(address, disk, s);
            MarkUsed(address, once.disk, once.inboxes) == Reply(once.disk, once.inboxes, Retired)
  {
    var rs := LoadEmails(disk).records;
    var i := IndexOf(rs, address).value;
    var rs' := MarkEntry(rs, i);
    assert forall j :: 0 <= j < |rs| ==> rs'[j].address == rs[j].address;
    var k := IndexOf(rs', address);
    assert k.Some? && !(k.value < i) && !(i < k.value);
    assert MarkEntry(rs', i) == rs';
    var once := MarkUsed(address, disk, s);
    assert Remove(once.inboxes, address) == once.inboxes by {
      assert address !in once.inboxes.boxes;
      assert once.inboxes.boxes - {address} == once.inboxes.boxes;
      WithoutAbsent(once.inboxes.keys, address);
    }
  }

  /** A retired entry is never handed out again by new-address. */
  lemma RetiredNotReassigned(address: string, disk: Option<PoolFile>, s: Inboxes)
    requires Valid(s)
    requires MarkUsed(address, disk, s).response == Retired
    ensures FirstFree(LoadEmails(MarkUsed(address, disk, s).disk).records)
            != IndexOf(LoadEmails(disk).records, address)
  {
    var rs := LoadEmails(disk).records;
    var i := IndexOf(rs, address).value;
    assert !IsFree(MarkEntry(rs, i)[i]);
  }
}

=== FILE: scenarios.dfy ===
/** Concrete runs of the normalisation and of the webhook on small
    inputs, and how what the webhook stores meets the client's filter. */
module Scenarios {
  import opened Wrappers
  import opened Text
  import opened Mime
  import opened Address
  import opened InboxStore
  import opened Webhook
  import Client

  lemma FindsAngleBrackets()
    ensures FindMatch("Foo <Bar@X.com >", 0) == Some((4, 15))
  {
    assert LineEnd("Foo <Bar@X.com >", 5) == 16;
    assert LastClose("Foo <Bar@X.com >", 5, 16) == Some(15);
    assert FindMatch("Foo <Bar@X.com >", 4) == Some((4, 15));
  }

  lemma TrimCaptureStart()
    ensures TrimStart("Bar@X.com ") == "Bar@X.com "
  {
    assert "Bar@X.com "[0] == 'B' && !IsTrimmable('B');
  }

  lemma TrimCaptureEnd()
    ensures TrimEnd("Bar@X.com ") == "Bar@X.com"
  {
    assert "Bar@X.com "[9] == ' ' && IsTrimmable(' ');
    assert "Bar@X.com "[..9] == "Bar@X.com";
    assert "Bar@X.com"[8] == 'm' && !IsTrimmable('m');
    assert TrimEnd("Bar@X.com") == "Bar@X.com";
  }

  lemma TrimCapture()
    ensures Trim("Bar@X.com ") == "Bar@X.com"
  {
    TrimCaptureStart();
    TrimCaptureEnd();
  }

  lemma LowerCapture()
    ensures Lower("Bar@X.com") == "bar@x.com"
  {
  }

  lemma Capture()
    ensures "Foo <Bar@X.com >"[5..15] == "Bar@X.com "
  {
  }

  /** "Display Name <address>" keeps the address, trimmed and lowercased. */
  lemma DisplayNameForm()
    ensures NormalizeEmailAddress("Foo <Bar@X.com >") == "bar@x.com"
  {
    FindsAngleBrackets();
    Capture();
    TrimCapture();
    LowerCapture();
  }

  /** A bare address without angle brackets is only trimmed and lowercased. */
  lemma BareAddress(v: string)
    requires forall i :: 0 <= i < |v| ==> v[i] != '<'
    ensures NormalizeEmailAddress(v) == Lower(Trim(v))
  {
  }

  const Tracked := "foo@test.com"

  const Headers := [Header("To", Tracked), Header("Subject", "Hi")]

  const Payload := Part("text/plain", Some(Headers), "", [])

  lemma TrackedIsCanonical()
    ensures Canonical(Tracked) == Tracked
  {
    assert !IsTrimmable('f') && !IsTrimmable('m');
    assert TrimStart(Tracked) == Tracked;
    assert TrimEnd(Tracked) == Tracked;
    assert Lower(Tracked) == Tracked;
  }

  lemma HeadersOfPayload()
    ensures ParseHeader(Some(Headers), "Delivered-To") == ""
    ensures ParseHeader(Some(Headers), "To") == Tracked
    ensures ParseHeader(Some(Headers), "Subject") == "Hi"
  {
    assert !NameMatches(Headers[0], "Delivered-To") && !NameMatches(Headers[1], "Delivered-To");
    assert NameMatches(Headers[0], "To");
    assert !NameMatches(Headers[0], "Subject") && NameMatches(Headers[1], "Subject");
  }

  lemma PayloadRecipient()
    ensures Recipient(Payload.headers) == Tracked
  {
    HeadersOfPayload();
    BareAddress(Tracked);
    TrackedIsCanonical();
  }

  const MultiRecipient := [Header("Delivered-To", "a@x.com"), Header("To", "b@x.com, a@x.com")]

  lemma DeliveredToHeader()
    ensures ParseHeader(Some(MultiRecipient), "Delivered-To") == "a@x.com"
  {
    assert NameMatches(MultiRecipient[0], "Delivered-To");
  }

  lemma AliasIsCanonical()
    ensures Lower(Trim("a@x.com")) == "a@x.com"
  {
    assert !IsTrimmable('a') && !IsTrimmable('m');
    assert TrimStart("a@x.com") == "a@x.com";
    assert TrimEnd("a@x.com") == "a@x.com";
    assert Lower("a@x.com") == "a@x.com";
  }

  /** The delivery target wins over a multi-recipient To line. */
  lemma DeliveredToPreferred()
    ensures Recipient(Some(MultiRecipient)) == "a@x.com"
  {
    DeliveredToHeader();
    BareAddress("a@x.com");
    AliasIsCanonical();
  }

  const Batch := HistoryResponse(Some([HistoryRecord(None), HistoryRecord(Some(["m1"]))]), "105")

  /** The history listing: one message added since cursor "100". */
  function ListFrom100(cursor: string): Fetched<HistoryResponse> {
    if cursor == "100" then Ok(Batch) else Failed
  }

  function FetchPayload(id: string): Fetched<Message> {
    Ok(Message(Some(Payload)))
  }

  function Identity(data: string): string {
    data
  }

  const Stored := ToEmail(Identity, "m1", Payload)

  lemma BatchIds()
    ensures AddedIds(Batch.history.value) == ["m1"]
  {
    assert Batch.history.value[1..] == [HistoryRecord(Some(["m1"]))];
  }

  lemma BatchListed()
    ensures HasHistory(ListFrom100, "100") && Listed(ListFrom100, "100") == ["m1"]
    ensures AllFetched(["m1"], FetchPayload)
  {
    assert ListFrom100("100") == Ok(Batch);
    BatchIds();
  }

  lemma StoredRecord()
    ensures Stored.id == "m1" && Stored.subject == "Hi" && Stored.from == ""
  {
    HeadersOfPayload();
    assert !NameMatches(Headers[0], "From") && !NameMatches(Headers[1], "From");
  }

  lemma TrackedRoutes()
    ensures RoutesTo([Tracked], Tracked, Tracked)
  {
    TrackedIsCanonical();
    assert [Tracked][0] == Tracked && Tracked != "";
    assert KeyIndex([Tracked], Tracked) == Some(0);
  }

  lemma BatchArrivals()
    ensures Arrivals([Tracked], Tracked, ["m1"], FetchPayload, Identity) == [Stored]
  {
    PayloadRecipient();
    TrackedRoutes();
    ArrivalsOfOne([Tracked], Tracked, "m1", FetchPayload, Identity, Payload);
  }

  /** One fetched message routed to `k` is all that `k` receives. */
  lemma ArrivalsOfOne(keys: seq<string>, k: string, id: string, fetch: string -> Fetched<Message>,
                      decode: string -> string, p: Part)
    requires fetch(id) == Ok(Message(Some(p))) && RoutesTo(keys, Recipient(p.headers), k)
    ensures Arrivals(keys, k, [id], fetch, decode) == [ToEmail(decode, id, p)]
  {
    assert Arrivals(keys, k, [id][1..], fetch, decode) == [];
  }

  /** Cursor "100", one added message "m1" for the tracked inbox, new
      cursor "105": the inbox holds exactly that message and the state
      file holds "105". The starting inboxes are a parameter fixed by the
      requires, rather than a local, so that the verifier does not unfold
      the run on the literal before the helper lemmas are applied. */
  lemma OneMessageScenario(s: Inboxes)
    requires s == Open(Empty, Tracked)
    ensures Valid(s)
    ensures var r := Sync(s, Some("100"), ListFrom100, FetchPayload, Identity);
            && r.outcome == Completed
            && r.state == Some("105")
            && Read(r.inboxes, Tracked) == [Stored]
  {
    assert s.keys == [Tracked] && Read(s, Tracked) == [];
    BatchListed();
    SyncCompletes(s, "100", ListFrom100, FetchPayload, Identity);
    BatchArrivals();
    assert Reverse([Stored]) == [Stored];
  }

  /** A second run from the same cursor stores "m1" a second time. The
      starting inboxes are pinned by the requires for the same reason as
      in OneMessageScenario. */
  lemma ReplayScenario(s: Inboxes)
    requires s == Open(Empty, Tracked)
    ensures Valid(s)
    ensures var first := Sync(s, Some("100"), ListFrom100, FetchPayload, Identity);
            var again := Sync(first.inboxes, Some("100"), ListFrom100, FetchPayload, Identity);
            Read(again.inboxes, Tracked) == [Stored, Stored]
  {
    assert s.keys == [Tracked] && Read(s, Tracked) == [];
    BatchListed();
    BatchArrivals();
    ReplayOfOne(s, "100", ListFrom100, FetchPayload, Identity, Tracked, Stored);
  }

  /** A run that hands exactly one record to an empty inbox, replayed. */
  lemma ReplayOfOne(s: Inboxes, cursor: string, list: string -> Fetched<HistoryResponse>,
                    fetch: string -> Fetched<Message>, decode: string -> string, k: string, e: Email)
    requires Valid(s) && Read(s, k) == []
    requires HasHistory(list, cursor) && AllFetched(Listed(list, cursor), fetch)
    requires Arrivals(s.keys, k, Listed(list, cursor), fetch, decode) == [e]
    ensures var first := Sync(s, Some(cursor), list, fetch, decode);
            Read(Sync(first.inboxes, Some(cursor), list, fetch, decode).inboxes, k) == [e, e]
  {
    SyncReplayDuplicates(s, cursor, list, fetch, decode, k);
    assert Reverse([e]) == [e];
    assert [e] + ([e] + []) == [e, e];
  }

  /** The client shows every message the webhook stores, except one whose
      Subject header is literally the placeholder "(no subject)": an
      empty subject is stored as "No Subject", which passes the filter. */
  lemma StoredMailShownByClient(decode: string -> string, id: string, p: Part)
    ensures Client.Shown(ToEmail(decode, id, p)) <==> ParseHeader(p.headers, "Subject") != Client.Placeholder
  {
  }
}

=== FILE: search.dfy ===
/** Linear search: the `Array.prototype.find` / `findIndex` pattern the
    server uses for headers, MIME parts, inbox keys and pool entries. */
module Search {
  import opened Wrappers

  /** The index of the first element satisfying `p`, if any. */
  function FirstIndex<T>(xs: seq<T>, p: T -> bool): (r: Option<nat>)
    ensures r.Some? ==> r.value < |xs| && p(xs[r.value])
                        && forall j :: 0 <= j < r.value ==> !p(xs[j])
    ensures r.None? ==> forall j :: 0 <= j < |xs| ==> !p(xs[j])
  {
    if |xs| == 0 then None
    else if p(xs[0]) then Some(0)
    else
      var rest := FirstIndex(xs[1..], p);
      assert forall j :: 1 <= j < |xs| ==> xs[j] == xs[1..][j - 1];
      if rest.Some? then Some(rest.value + 1) else None
  }
}

=== FILE: text.dfy ===
/** String helpers with the semantics of the JavaScript built-ins the
    server uses: `String.prototype.trim` and an ASCII `toLowerCase`. */
module Text {

  /** The characters `String.prototype.trim` removes: the WhiteSpace and
      LineTerminator productions of ECMA-262 (section 12.2 and 12.3). */
  predicate IsTrimmable(c: char) {
    || c == '\t' || c == '\n' || c == '\U{000B}' || c == '\U{000C}' || c == '\r'
    || c == ' ' || c == '\U{00A0}' || c == '\U{1680}'
    || ('\U{2000}' <= c <= '\U{200A}')
    || c == '\U{2028}' || c == '\U{2029}' || c == '\U{202F}' || c == '\U{205F}'
    || c == '\U{3000}' || c == '\U{FEFF}'
  }

  predicate IsUpper(c: char) {
    'A' <= c <= 'Z'
  }

  /** `toLowerCase` on one character, restricted to ASCII letters. */
  function LowerChar(c: char): (r: char)
    ensures !IsUpper(r)
    ensures IsUpper(c) ==> 'a' <= r <= 'z' && r as int - c as int == 'a' as int - 'A' as int
    ensures !IsUpper(c) ==> r == c
  {
    if IsUpper(c) then (c as int + 32) as char else c
  }

  /** `toLowerCase` on a string, character by character. */
  function Lower(s: string): (r: string)
    ensures |r| == |s|
  {
    seq(|s|, i requires 0 <= i < |s| => LowerChar(s[i]))
  }

  /** What `toLowerCase` does to each position: no ASCII capital remains,
      each capital becomes its lowercase letter, and every other character
      stays where it was. */
  lemma LowerSpec(s: string)
    ensures forall i :: 0 <= i < |s| ==> !IsUpper(Lower(s)[i])
    ensures forall i :: 0 <= i < |s| && !IsUpper(s[i]) ==> Lower(s)[i] == s[i]
    ensures forall i :: 0 <= i < |s| && IsUpper(s[i]) ==> Lower(s)[i] as int - s[i] as int == 'a' as int - 'A' as int
  {
  }

  /** Drops the longest trimmable prefix. */
  function TrimStart(s: string): (r: string)
    ensures |r| <= |s| && r == s[|s| - |r|..]
    ensures forall i :: 0 <= i < |s| - |r| ==> IsTrimmable(s[i])
    ensures |r| > 0 ==> !IsTrimmable(r[0])
  {
    if |s| > 0 && IsTrimmable(s[0]) then TrimStart(s[1..]) else s
  }

  /** Drops the longest trimmable suffix. */
  function TrimEnd(s: string): (r: string)
    ensures |r| <= |s| && r == s[..|r|]
    ensures forall i :: |r| <= i < |s| ==> IsTrimmable(s[i])
    ensures |r| > 0 ==> !IsTrimmable(r[|r| - 1])
  {
    if |s| > 0 && IsTrimmable(s[|s| - 1]) then TrimEnd(s[..|s| - 1]) else s
  }

  /** `String.prototype.trim`. */
  function Trim(s: string): (r: string)
    ensures |r| == 0 || (!IsTrimmable(r[0]) && !IsTrimmable(r[|r| - 1]))
  {
    TrimEnd(TrimStart(s))
  }

  /** The key normalisation both sides of the inbox routing use:
      `s.trim().toLowerCase()`. */
  function Canonical(s: string): string {
    Lower(Trim(s))
  }

  /** Trimming twice is trimming once. */
  lemma TrimIdempotent(s: string)
    ensures Trim(Trim(s)) == Trim(s)
  {
    var t := Trim(s);
    assert TrimStart(t) == t;
    assert TrimEnd(t) == t;
  }

  /** Lowercasing twice is lowercasing once. */
  lemma LowerIdempotent(s: string)
    ensures Lower(Lower(s)) == Lower(s)
  {
  }

  /** ASCII lowercasing never turns a trimmable character into a
      non-trimmable one or back, so it commutes with trim: the server's
      `trim().toLowerCase()` equals `toLowerCase().trim()`. */
  lemma {:induction false} LowerCommutesWithTrim(s: string)
    ensures Lower(Trim(s)) == Trim(Lower(s))
  {
    LowerCommutesWithTrimStart(s);
    LowerCommutesWithTrimEnd(TrimStart(s));
  }

  /** `trim` keeps a contiguous middle of its input: the result is the
      slice that starts where TrimStart stopped. */
  lemma TrimKeepsMiddle(s: string)
    ensures var a := |s| - |TrimStart(s)|;
            a + |Trim(s)| <= |s| && Trim(s) == s[a..a + |Trim(s)|]
  {
    var t := TrimStart(s);
    var r := TrimEnd(t);
    SliceOfSuffix(s, |s| - |t|, |r|);
  }

  /** A prefix of a suffix is a middle slice. */
  lemma SliceOfSuffix<T>(s: seq<T>, a: nat, n: nat)
    requires a + n <= |s|
    ensures s[a..][..n] == s[a..a + n]
  {
  }

  /** Everything `trim` removes, before and after the kept middle, is
      trimmable. */
  lemma TrimRemovesOnlyTrimmable(s: string)
    ensures var a := |s| - |TrimStart(s)|;
            && (forall i :: 0 <= i < a ==> IsTrimmable(s[i]))
            && (forall i :: a + |Trim(s)| <= i < |s| ==> IsTrimmable(s[i]))
  {
    var a := |s| - |TrimStart(s)|;
    var t := TrimStart(s);
    assert t == s[a..];
    forall i | a + |Trim(s)| <= i < |s|
      ensures IsTrimmable(s[i])
    {
      assert s[i] == t[i - a];
    }
  }

  /** ASCII lowercasing maps trimmable characters to themselves and
      non-trimmable ones to non-trimmable ones. */
  lemma LowerKeepsTrimmable(c: char)
    ensures IsTrimmable(LowerChar(c)) == IsTrimmable(c)
  {
  }

  lemma {:induction false} LowerCommutesWithTrimStart(s: string)
    ensures Lower(TrimStart(s)) == TrimStart(Lower(s))
    decreases |s|
  {
    if |s| > 0 {
      var l := Lower(s);
      LowerFront(s);
      LowerKeepsTrimmable(s[0]);
      TrimStartFront(s);
      TrimStartFront(l);
      if IsTrimmable(s[0]) {
        LowerCommutesWithTrimStart(s[1..]);
      }
    }
  }

  lemma {:induction false} LowerCommutesWithTrimEnd(s: string)
    ensures Lower(TrimEnd(s)) == TrimEnd(Lower(s))
    decreases |s|
  {
    if |s| > 0 {
      var n := |s| - 1;
      var l := Lower(s);
      LowerBack(s);
      LowerKeepsTrimmable(s[n]);
      TrimEndBack(s);
      TrimEndBack(l);
      if IsTrimmable(s[n]) {
        LowerCommutesWithTrimEnd(s[..n]);
      }
    }
  }

  lemma LowerFront(s: string)
    requires |s| > 0
    ensures Lower(s)[0] == LowerChar(s[0]) && Lower(s)[1..] == Lower(s[1..])
  {
  }

  lemma LowerBack(s: string)
    requires |s| > 0
    ensures Lower(s)[|s| - 1] == LowerChar(s[|s| - 1]) && Lower(s)[..|s| - 1] == Lower(s[..|s| - 1])
  {
  }

  lemma TrimStartFront(s: string)
    requires |s| > 0
    ensures TrimStart(s) == if IsTrimmable(s[0]) then TrimStart(s[1..]) else s
  {
  }

  lemma TrimEndBack(s: string)
    requires |s| > 0
    ensures TrimEnd(s) == if IsTrimmable(s[|s| - 1]) then TrimEnd(s[..|s| - 1]) else s
  {
  }

  /** Canonical form is a fixed point: a key already in canonical form
      is its own canonical form. */
  lemma CanonicalIdempotent(s: string)
    ensures Canonical(Canonical(s)) == Canonical(s)
  {
    LowerCommutesWithTrim(Trim(s));
    TrimIdempotent(s);
    LowerIdempotent(Trim(s));
  }
}

=== FILE: webhook.dfy ===
/** The body of the `/webhook/pubsub-push` handler (backend/server.js):
    one synchronisation run from the cursor in state.json. The Gmail
    history listing, the message fetches and the base64 decoding are
    parameters of the run. */
module Webhook {
  import opened Wrappers
  import opened Text
  import opened Mime
  import opened Address
  import opened InboxStore

  /** One entry of `history[]`; `messagesAdded` holds the message ids. */
  datatype HistoryRecord = HistoryRecord(messagesAdded: Option<seq<string>>)

  /** The data of the `users.history.list` response. */
  datatype HistoryResponse = HistoryResponse(history: Option<seq<HistoryRecord>>, historyId: string)

  /** The data of the `users.messages.get` response. */
  datatype Message = Message(payload: Option<Part>)

  /** How a run ends. `NoState`: state.json missing or unparseable.
      `NothingNew`: no history. `Aborted`: an exception reached the
      handler's catch. `Completed`: the new cursor was written. */
  datatype Outcome = NoState | NothingNew | Aborted | Completed

  /** The inboxes and the state-file cursor after a run. */
  datatype Run = Run(inboxes: Inboxes, state: Option<string>, outcome: Outcome)

  const NoSubject := "No Subject"

  /** The address a message is delivered to: the normalised Delivered-To
      header when it is non-empty, else the normalised To header. */
  function Recipient(headers: Option<seq<Header>>): (r: string)
    ensures ParseHeader(headers, "Delivered-To") != ""
            ==> r == NormalizeEmailAddress(ParseHeader(headers, "Delivered-To"))
    ensures ParseHeader(headers, "Delivered-To") == ""
            ==> r == NormalizeEmailAddress(ParseHeader(headers, "To"))
    ensures Canonical(r) == r
  {
    NormalizedIsCanonical(if ParseHeader(headers, "Delivered-To") != "" then ParseHeader(headers, "Delivered-To")
                          else ParseHeader(headers, "To"));
    var deliveredTo := ParseHeader(headers, "Delivered-To");
    NormalizeEmailAddress(if deliveredTo != "" then deliveredTo else ParseHeader(headers, "To"))
  }

  /** The record the handler unshifts for message `id`. */
  function ToEmail(decode: string -> string, id: string, p: Part): (r: Email)
    ensures r.id == id && r.subject != ""
    ensures r.from == ParseHeader(p.headers, "From") && r.date == ParseHeader(p.headers, "Date")
    ensures ParseHeader(p.headers, "Subject") != "" ==> r.subject == ParseHeader(p.headers, "Subject")
    ensures ParseHeader(p.headers, "Subject") == "" ==> r.subject == NoSubject
    ensures r.body == ParseMessageBody(decode, Some(p))
  {
    var subject := ParseHeader(p.headers, "Subject");
    Email(ParseHeader(p.headers, "From"),
          if subject != "" then subject else NoSubject,
          ParseMessageBody(decode, Some(p)),
          ParseHeader(p.headers, "Date"),
          id)
  }

  /** The message ids of `history[].messagesAdded[]`, in order; records
      without `messagesAdded` contribute none. */
  function AddedIds(history: seq<HistoryRecord>): (r: seq<string>)
    ensures forall id :: id in r <==> exists i :: 0 <= i < |history| && history[i].messagesAdded.Some?
                                                  && id in history[i].messagesAdded.value
  {
    if |history| == 0 then []
    else
      var rest := AddedIds(history[1..]);
      assert forall i :: 1 <= i < |history| ==> history[i] == history[1..][i - 1];
      history[0].messagesAdded.GetOr([]) + rest
  }

  /** The ids are the records' `messagesAdded` lists laid end to end, in
      history order and with repeats kept: one record contributes its list
      as it is, and the ids of consecutive stretches of history
      concatenate. */
  lemma {:induction false} AddedIdsConcat(h1: seq<HistoryRecord>, h2: seq<HistoryRecord>, rec: HistoryRecord)
    ensures AddedIds([rec]) == rec.messagesAdded.GetOr([])
    ensures AddedIds(h1 + h2) == AddedIds(h1) + AddedIds(h2)
    decreases |h1|
  {
    assert [rec][1..] == [];
    if |h1| == 0 {
      assert h1 + h2 == h2;
    } else {
      assert (h1 + h2)[1..] == h1[1..] + h2;
      AddedIdsConcat(h1[1..], h2, rec);
    }
  }

  /** Handles one fetched payload: routes it by its recipient and unshifts
      its record. */
  function Accept(s: Inboxes, decode: string -> string, id: string, p: Part): (r: Inboxes)
    requires Valid(s)
    ensures Valid(r) && r.keys == s.keys && r.boxes.Keys == s.boxes.Keys
    ensures forall k :: Read(r, k) == if RoutesTo(s.keys, Recipient(p.headers), k)
                                      then [ToEmail(decode, id, p)] + Read(s, k) else Read(s, k)
  {
    Deliver(s, Recipient(p.headers), ToEmail(decode, id, p))
  }

  /** The nested loops over the ids: fetch, normalise, route, unshift.
      The flag is false when a fetch threw or returned no payload (reading
      `payload.headers` then throws), which stops the run there; the
      inboxes keep what was delivered before. */
  function Process(s: Inboxes, ids: seq<string>, fetch: string -> Fetched<Message>,
                   decode: string -> string): (r: (Inboxes, bool))
    requires Valid(s)
    ensures Valid(r.0) && r.0.keys == s.keys && r.0.boxes.Keys == s.boxes.Keys
    decreases |ids|
  {
    if |ids| == 0 then (s, true)
    else
      var f := fetch(ids[0]);
      if f.Failed? || f.response.payload.None? then (s, false)
      else
        var s' := Accept(s, decode, ids[0], f.response.payload.value);
        Process(s', ids[1..], fetch, decode)
  }

  /** One webhook run. */
  function Sync(s: Inboxes, state: Option<string>, list: string -> Fetched<HistoryResponse>,
                fetch: string -> Fetched<Message>, decode: string -> string): (r: Run)
    requires Valid(s)
    ensures Valid(r.inboxes) && r.inboxes.keys == s.keys && r.inboxes.boxes.Keys == s.boxes.Keys
    ensures state.None? ==> r == Run(s, state, NoState)
    ensures r.outcome == Completed ==>
              state.Some? && list(state.value).Ok? && r.state == Some(list(state.value).response.historyId)
    ensures state.Some? && list(state.value).Failed? ==> r == Run(s, state, Aborted)
    ensures r.outcome != Completed ==> r.state == state
    ensures r.outcome == NoState || r.outcome == NothingNew ==> r.inboxes == s
    ensures state.Some? && list(state.value).Ok?
            && (list(state.value).response.history.None? || |list(state.value).response.history.value| == 0)
            ==> r == Run(s, state, NothingNew)
  {
    match state
    case None => Run(s, state, NoState)
    case Some(cursor) =>
      match list(cursor)
      case Failed => Run(s, state, Aborted)
      case Ok(resp) =>
        if resp.history.None? || |resp.history.value| == 0 then Run(s, state, NothingNew)
        else
          var (s', ok) := Process(s, AddedIds(resp.history.value), fetch, decode);
          if ok then Run(s', Some(resp.historyId), Completed) else Run(s', state, Aborted)
  }

  /** The list in reverse order. */
  function Reverse<T>(xs: seq<T>): (r: seq<T>)
    ensures |r| == |xs|
    ensures forall i :: 0 <= i < |xs| ==> r[i] == xs[|xs| - 1 - i]
  {
    if |xs| == 0 then [] else Reverse(xs[1..]) + [xs[0]]
  }

  /** The listing from `cursor` succeeds with a non-empty history. */
  predicate HasHistory(list: string -> Fetched<HistoryResponse>, cursor: string) {
    list(cursor).Ok? && list(cursor).response.history.Some? && |list(cursor).response.history.value| > 0
  }

  /** The message ids that history lists. */
  function Listed(list: string -> Fetched<HistoryResponse>, cursor: string): seq<string>
    requires HasHistory(list, cursor)
  {
    AddedIds(list(cursor).response.history.value)
  }

  /** Every id is fetched with a payload: the run cannot stop early. */
  ghost predicate AllFetched(ids: seq<string>, fetch: string -> Fetched<Message>) {
    forall i :: 0 <= i < |ids| ==> fetch(ids[i]).Ok? && fetch(ids[i]).response.payload.Some?
  }

  /** The key `target` routes to among `keys` is `k`, and `k` is not the
      falsy key "". */
  ghost predicate RoutesTo(keys: seq<string>, target: string, k: string) {
    KeyIndex(keys, target).Some? && keys[KeyIndex(keys, target).value] == k && k != ""
  }

  /** Reference definition of what a run hands to inbox `k`: the records
      of the messages, up to the first failed fetch, whose recipient routes
      to `k`, in processing order. */
  ghost function Arrivals(keys: seq<string>, k: string, ids: seq<string>,
                          fetch: string -> Fetched<Message>, decode: string -> string): seq<Email>
  {
    if |ids| == 0 || fetch(ids[0]).Failed? || fetch(ids[0]).response.payload.None? then []
    else
      var p := fetch(ids[0]).response.payload.value;
      var rest := Arrivals(keys, k, ids[1..], fetch, decode);
      if RoutesTo(keys, Recipient(p.headers), k) then [ToEmail(decode, ids[0], p)] + rest else rest
  }

  lemma AllFetchedTail(ids: seq<string>, fetch: string -> Fetched<Message>)
    requires |ids| > 0
    ensures AllFetched(ids, fetch) <==>
              fetch(ids[0]).Ok? && fetch(ids[0]).response.payload.Some? && AllFetched(ids[1..], fetch)
  {
    assert forall i :: 1 <= i < |ids| ==> ids[i] == ids[1..][i - 1];
  }

  /** The batch loop leaves every inbox holding the records routed to it,
      last processed first, in front of what it held before; this holds
      also when a failed fetch stops the loop. */
  lemma {:induction false} ProcessPrependsArrivals(s: Inboxes, ids: seq<string>, fetch: string -> Fetched<Message>,
                                                   decode: string -> string, k: string)
    requires Valid(s)
    ensures Read(Process(s, ids, fetch, decode).0, k) == Reverse(Arrivals(s.keys, k, ids, fetch, decode)) + Read(s, k)
    decreases |ids|
  {
    if |ids| > 0 {
      var f := fetch(ids[0]);
      if f.Ok? && f.response.payload.Some? {
        var p := f.response.payload.value;
        var s' := Accept(s, decode, ids[0], p);
        var rest := Arrivals(s.keys, k, ids[1..], fetch, decode);
        ProcessPrependsArrivals(s', ids[1..], fetch, decode, k);
        if RoutesTo(s.keys, Recipient(p.headers), k) {
          var e := ToEmail(decode, ids[0], p);
          PrependBehind(Reverse(rest), e, Read(s, k));
          ReverseCons(e, rest);
        }
      }
    }
  }

  /** A record unshifted before the later ones sits behind them. */
  lemma PrependBehind<T>(later: seq<T>, x: T, xs: seq<T>)
    ensures later + ([x] + xs) == (later + [x]) + xs
  {
  }

  lemma ReverseCons<T>(x: T, xs: seq<T>)
    ensures Reverse([x] + xs) == Reverse(xs) + [x]
  {
    assert ([x] + xs)[1..] == xs;
  }

  /** The batch loop reports success exactly when every fetch returned a
      payload. */
  lemma {:induction false} ProcessSucceedsIffAllFetched(s: Inboxes, ids: seq<string>, fetch: string -> Fetched<Message>,
                                                        decode: string -> string)
    requires Valid(s)
    ensures Process(s, ids, fetch, decode).1 <==> AllFetched(ids, fetch)
    decreases |ids|
  {
    if |ids| > 0 {
      AllFetchedTail(ids, fetch);
      var f := fetch(ids[0]);
      if f.Ok? && f.response.payload.Some? {
        ProcessSucceedsIffAllFetched(Accept(s, decode, ids[0], f.response.payload.value), ids[1..], fetch, decode);
      }
    }
  }

  /** A run that reads a non-empty history and fetches every message
      completes: each inbox gains the records routed to it, last processed
      first, and the state file then holds exactly the response's
      historyId. */
  lemma SyncCompletes(s: Inboxes, cursor: string, list: string -> Fetched<HistoryResponse>,
                      fetch: string -> Fetched<Message>, decode: string -> string)
    requires Valid(s)
    requires HasHistory(list, cursor) && AllFetched(Listed(list, cursor), fetch)
    ensures var r := Sync(s, Some(cursor), list, fetch, decode);
            && r.outcome == Completed
            && r.state == Some(list(cursor).response.historyId)
            && forall k :: Read(r.inboxes, k)
                 == Reverse(Arrivals(s.keys, k, Listed(list, cursor), fetch, decode)) + Read(s, k)
  {
    var ids := Listed(list, cursor);
    forall k
      ensures Read(Process(s, ids, fetch, decode).0, k) == Reverse(Arrivals(s.keys, k, ids, fetch, decode)) + Read(s, k)
    {
      ProcessPrependsArrivals(s, ids, fetch, decode, k);
    }
    ProcessSucceedsIffAllFetched(s, ids, fetch, decode);
  }

  /** A fetch that throws (or returns no payload) aborts the run: the state
      file keeps the old cursor, while the records delivered before the
      failure stay in their inboxes. */
  lemma SyncAbortKeepsCursor(s: Inboxes, cursor: string, list: string -> Fetched<HistoryResponse>,
                             fetch: string -> Fetched<Message>, decode: string -> string)
    requires Valid(s)
    requires HasHistory(list, cursor) && !AllFetched(Listed(list, cursor), fetch)
    ensures var r := Sync(s, Some(cursor), list, fetch, decode);
            && r.outcome == Aborted
            && r.state == Some(cursor)
            && forall k :: Read(r.inboxes, k)
                 == Reverse(Arrivals(s.keys, k, Listed(list, cursor), fetch, decode)) + Read(s, k)
  {
    var ids := Listed(list, cursor);
    forall k
      ensures Read(Process(s, ids, fetch, decode).0, k) == Reverse(Arrivals(s.keys, k, ids, fetch, decode)) + Read(s, k)
    {
      ProcessPrependsArrivals(s, ids, fetch, decode, k);
    }
    ProcessSucceedsIffAllFetched(s, ids, fetch, decode);
  }

  /** Arrivals stop at the first failed fetch: the ids after it contribute
      nothing. */
  lemma {:induction false} ArrivalsStopAtFailure(keys: seq<string>, k: string, ids: seq<string>,
                                                 fetch: string -> Fetched<Message>, decode: string -> string, p: nat)
    requires p < |ids| && (fetch(ids[p]).Failed? || fetch(ids[p]).response.payload.None?)
    ensures Arrivals(keys, k, ids, fetch, decode) == Arrivals(keys, k, ids[..p], fetch, decode)
    decreases p
  {
    if p > 0 && fetch(ids[0]).Ok? && fetch(ids[0]).response.payload.Some? {
      assert ids[1..][p - 1] == ids[p];
      ArrivalsStopAtFailure(keys, k, ids[1..], fetch, decode, p - 1);
      assert ids[..p][1..] == ids[1..][..p - 1];
    }
  }

  /** Inserting is not idempotent: when a second run reads the same cursor
      before the first has saved its new one, every record is unshifted a
      second time. */
  lemma SyncReplayDuplicates(s: Inboxes, cursor: string, list: string -> Fetched<HistoryResponse>,
                             fetch: string -> Fetched<Message>, decode: string -> string, k: string)
    requires Valid(s)
    requires HasHistory(list, cursor) && AllFetched(Listed(list, cursor), fetch)
    ensures var first := Sync(s, Some(cursor), list, fetch, decode);
            var again := Sync(first.inboxes, Some(cursor), list, fetch, decode);
            var a := Reverse(Arrivals(s.keys, k, Listed(list, cursor), fetch, decode));
            Read(again.inboxes, k) == a + (a + Read(s, k))
  {
    var a := Reverse(Arrivals(s.keys, k, Listed(list, cursor), fetch, decode));
    SyncAddsArrivals(s, cursor, list, fetch, decode, k);
    var first := Sync(s, Some(cursor), list, fetch, decode);
    SyncAddsArrivals(first.inboxes, cursor, list, fetch, decode, k);
  }

  /** SyncCompletes for one inbox. */
  lemma SyncAddsArrivals(s: Inboxes, cursor: string, list: string -> Fetched<HistoryResponse>,
                         fetch: string -> Fetched<Message>, decode: string -> string, k: string)
    requires Valid(s)
    requires HasHistory(list, cursor) && AllFetched(Listed(list, cursor), fetch)
    ensures var r := Sync(s, Some(cursor), list, fetch, decode);
            && Valid(r.inboxes) && r.inboxes.keys == s.keys
            && Read(r.inboxes, k)
               == Reverse(Arrivals(s.keys, k, Listed(list, cursor), fetch, decode)) + Read(s, k)
  {
    var ids := Listed(list, cursor);
    ProcessSucceedsIffAllFetched(s, ids, fetch, decode);
    ProcessPrependsArrivals(s, ids, fetch, decode, k);
  }
}

=== FILE: wrappers.dfy ===
/** Helper datatypes shared by the model. */
module Wrappers {

  /** A value that may be absent: a missing header list, a null payload,
      an unreadable state file, a route that found no inbox. */
  datatype Option<+T> = None | Some(value: T) {

    /** Returns the value in Some, or `default` when None. */
    function GetOr(default: T): (r: T)
      ensures Some? ==> r == value
      ensures None? ==> r == default
    {
      match this
      case Some(v) => v
      case None => default
    }
  }

  /** The result of a remote call: either a response, or a thrown error. */
  datatype Fetched<+T> = Ok(response: T) | Failed
}
